=== FILE: README.md ===
# rattl crawler — a Dafny model

rattl is a command-line link checker. Given a start url it fetches the
page, follows every link on it that lies under the start url, and keeps
going until no new in-scope url turns up. It reports each fetched url on
the console, in green or red. The repository holds two versions of the
crawl:

- `crawl` (`src/Crawler.ts`), an async function that keeps its two
  records in closures;
- the older script (`src/index.ts`), which keeps its pending urls in a
  plain array and addresses them by a response's position in the batch.

`crawl` reports each result through `writeResultToConsole`
(`src/Output.ts`). The script does not use that reporter: it prints its
own lines with its own copies of the colour helpers.

This project models all three as pure Dafny functions, plus one loop
method per crawl version:

- `Fetch`: the transport result of one GET and the per-request `catch`.
  A failed request becomes a status-0 response.
- `Links`: `getFullUrl` and the anchor-to-link pipeline. Its code is the
  same in both versions.
- `Frontier`: the two records of `crawl`, crawled and pending.
  The pending record keeps its key order as JavaScript objects do.
- `Crawler`: `handleResponse`, the pruning at the top of a round, a round
  over a batch, and the `crawl` loop.
- `Script`: the same pieces for the script version.
- `Output`: colouring, the external-resources text and the result line.
  Each text comes with a reader that recovers the values it was built
  from.
- `Strings`, `Seqs`, `Wrappers`: `startsWith`, `join`, the decimal
  rendering of an integer, `filter`, and `Option`. `Strings` also holds
  the search and split that the readers of the reporter's texts are built
  from; no source code calls them.

The network, the HTML parser and the console are parameters:

- `fetch: string -> Transport` gives the result of requesting a url;
- `anchors: string -> seq<Option<string>>` gives the optional `href` of
  each `a` element of a body;
- the lines a run would print are returned as a sequence.

Termination is proved relative to a finite set of urls. That set must
hold the start url and every in-scope link found on any of its pages.
Under that condition both crawls are proved to:

- end;
- never fetch a url twice;
- crawl exactly the urls they fetched, each recorded with the status of
  its own response;
- fetch only urls under the start url;
- leave no in-scope link of a crawled page uncrawled.

Other properties proved:

- The pruning step of `crawl` is dead code. Under the frontier invariant
  no pending url is ever crawled, so `Prune` returns its input unchanged.
- The script's reassignment `[...slice(0, index), ...slice(index)]` leaves
  the array as it was. Because the array only grows at its end, each
  position still names the url it named when the batch was requested.
- In every round of `crawl`, each report is the reporter's line for that
  url's own response. Its referer is the one the url's pending entry held
  when the round started, which is the page where the url was first found,
  never the `undefined` fallback.

`src/Output.ts` imports the type `ExternalResource` from `./Crawler`, but
`src/Crawler.ts` does not declare it. The model declares it in `Output`
with the two fields the reporter reads.

## Model

| member | source | states |
|---|---|---|
| Fetch.Settle | src/Crawler.ts:15-29 | any status is a response; a transport failure becomes status 0, with the error message as status text and no body, never an error for the batch |
| Fetch.SettleBody | src/Crawler.ts:57 | `if (response.data)` holds for a settled outcome exactly when the request got a response with a present, non-empty body; never after a transport failure |
| Fetch.FetchAll | src/Crawler.ts:80-84 | a batch yields one outcome per url, in request order, each the settled result of that url's own request |
| Links.GetFullUrl | src/Crawler.ts:37-38 | a `/`-reference is the start url followed by the reference; anything else is kept as is; the reference is always a suffix of the result; the result is empty exactly when the reference is |
| Links.HrefOrEmpty | src/Crawler.ts:61 | a missing `href` attribute reads as the empty string, a present one as its value |
| Links.FullUrls | src/Crawler.ts:59-61 | the `map` step: one full url per anchor, in document order |
| Links.ExtractLinks | src/Crawler.ts:57-63 | no empty link survives the filter, there are at most as many links as anchors, and the full url of every anchor with a non-empty `href` is among the links |
| Links.ExtractLinksSound | src/Crawler.ts:59-63 | conversely, every link is the full url of some anchor with a non-empty `href` |
| Links.ExtractLinksMapFilter | src/Crawler.ts:59-62 | the links are exactly the `map` of the anchors followed by the `filter` of empty urls: same elements, same order, same repeats |
| Links.PageLinks | src/Crawler.ts:57-63 | the `if (response.data)` guard (a body that is present and not empty): no links without such a body; otherwise no empty link, and the full url of every anchor with a non-empty `href` is among them |
| Frontier.Init | src/Crawler.ts:32-35 | the crawl starts valid, with only the start url pending (as its own referer) and nothing crawled |
| Frontier.Enqueue | src/Crawler.ts:40-45 | an admissible url (not pending, not crawled, under the start url) becomes the last key with the given referer; anything else changes nothing; the invariant is kept |
| Frontier.EnqueueValid | src/Crawler.ts:40-45 | appending an admissible url keeps the frontier invariant |
| Frontier.FirstDiscovererWins | src/Crawler.ts:40-45 | enqueueing a url a second time is a no-op, so the referer of its first discovery stays |
| Frontier.EnqueueAll | src/Crawler.ts:64 | offering the links keeps the invariant and the existing keys and entries; new entries are links with this referer; the new keys, after the old ones, are a subsequence of the links; every admissible link ends up pending |
| Frontier.EnqueueAllFirstOrder | src/Crawler.ts:64 | the new keys were admissible before the call and come in the order of their first occurrence in the links, so a repeated link adds nothing the second time |
| Frontier.Delete | src/Crawler.ts:70 | exactly that url leaves the pending record and the key order; the remaining keys keep their order |
| Frontier.MarkCrawled | src/Crawler.ts:66-70 | the url is recorded as crawled with the status and is no longer pending; the remaining keys keep their order; an in-scope url keeps the invariant |
| Crawler.HandleResponse | src/Crawler.ts:47-71 | the url is crawled with the response's status, is no longer pending, and is the only new crawled key; other entries are unchanged; new pending urls are links of the body, with this url as referer; every in-scope link is pending or crawled; a pending url keeps the invariant |
| Crawler.HandleResponseKeys | src/Crawler.ts:64-70 | after `handleResponse` the keys are a subsequence of the old keys followed by the page's links |
| Crawler.HandleResponseOldKeys | src/Crawler.ts:64-70 | for a pending url, the keys afterwards are exactly the old keys less the url, in their order, followed by the keys the links added; this is the order the next round fetches in |
| Crawler.RefererOf | src/Crawler.ts:52 | the referer of the url's pending entry, or the text `undefined` when it has none; HandleAllReports and RoundReports show the fallback is never taken in a crawl |
| Crawler.Report | src/Crawler.ts:50-55 | the reporter's line for the url with the referer of its pending entry, or with the text `undefined` when it has none |
| Crawler.Prune | src/Crawler.ts:74-77 | crawled urls leave the pending record and the rest keep their order; on a valid frontier nothing changes |
| Crawler.HandleAll | src/Crawler.ts:82-84 | one report per handled response; the HandleAll lemmas below state what the batch does to the frontier and which referer each report carries |
| Crawler.HandleFirst | src/Crawler.ts:82-84 | after the first url of a batch is handled, the rest of the batch is still pending and free of repeats |
| Crawler.HandleAllValid | src/Crawler.ts:82-84 | handling a batch keeps the invariant and crawls exactly the earlier urls plus the batch |
| Crawler.HandleAllKeeps | src/Crawler.ts:66-69 | crawl records from before the round are untouched |
| Crawler.HandleAllStatuses | src/Crawler.ts:66-69 | each url of the batch is recorded with the status of its own response |
| Crawler.HandleAllPending | src/Crawler.ts:64-70 | pending urls outside the batch keep their entries; nothing pending or crawled is lost |
| Crawler.HandleAllLinks | src/Crawler.ts:57-65 | every in-scope link on a page of the batch is pending or crawled after the round |
| Crawler.HandleAllReports | src/Crawler.ts:50-55 | each url is reported with the referer of its first discovery, as the frontier held it before the round |
| Crawler.HandleAllWithin | src/Crawler.ts:64 | new pending urls are in-scope links of the round's pages, so a link-closed url set still contains the frontier |
| Crawler.RoundKeepsLinksKnown | src/Crawler.ts:57-65 | a round keeps every in-scope link of every crawled page pending or crawled |
| Crawler.Round | src/Crawler.ts:74-84 | a round reports once per fetched url; its effect is stated by RoundFrontier, RoundProgress, RoundFetched and RoundLines |
| Crawler.RoundBatch | src/Crawler.ts:74-78 | on a valid frontier the round fetches exactly the pending keys, in insertion order, none of them crawled |
| Crawler.RoundFrontier | src/Crawler.ts:73-85 | a round keeps the invariant, the known links and the url set, and loses no url |
| Crawler.RoundProgress | src/Crawler.ts:73-85 | a round with pending urls crawls a url of the set that was not crawled before |
| Crawler.RoundFetched | src/Crawler.ts:78-84 | the fetch log stays free of repeats and equal to the crawled set, with each status that of the url's response |
| Crawler.RoundLines | src/Crawler.ts:50-55 | across the rounds so far, the report of a fetch is absent exactly for a 200 response when only errors are shown |
| Crawler.RoundReports | src/Crawler.ts:50-55 | every url a round fetches was pending, and its report is the reporter's line for its own response with the referer its pending entry held when the round started |
| Crawler.RoundStep | src/Crawler.ts:73-85 | a round keeps the crawl invariant and strictly shrinks the uncrawled part of the url set |
| Crawler.CrawlStart | src/Crawler.ts:32-35 | the initial frontier satisfies the crawl invariant |
| Crawler.CrawlDone | src/Crawler.ts:73 | with no key left, nothing is pending, the start url is crawled, and every in-scope link of a crawled page is crawled |
| Crawler.Crawl | src/Crawler.ts:31-86 | `crawl` ends with nothing pending, no url fetched twice, the fetched urls exactly the crawled ones, each in scope with its response's status, the start url crawled, the crawled set closed under in-scope links, and one report per fetch that is absent exactly for a 200 with errors only |
| Output.GreenText | src/Output.ts:4 | reading the colour codes back gives green and the text |
| Output.RedText | src/Output.ts:5 | reading the colour codes back gives red and the text |
| Output.Paint | src/Output.ts:12-13 | the chosen colour and the text can be read back |
| Output.GetTextColor | src/Output.ts:7-13 | red exactly when the status is not 200 or there are external resources, green otherwise |
| Output.SingleResourceToString | src/Output.ts:20-25 | the text decodes back to the resource when the tag name has no line break, and has no comma when the fields have none |
| Output.DecodeSingle | src/Output.ts:20-25 | the rendered text of a resource whose tag name has no line break decodes to that resource |
| Output.SingleNoComma | src/Output.ts:20-25 | a rendered resource has no comma when its fields have none |
| Output.RenderAll | src/Output.ts:29 | one text per resource, in order |
| Output.DecodeAllRender | src/Output.ts:29 | the texts of printable resources decode back to the list |
| Output.ExternalResourcesToString | src/Output.ts:15-31 | empty exactly when the list is absent or empty; otherwise it starts with the header |
| Output.ExternalsRoundTrip | src/Output.ts:15-31 | the externals text of a printable list decodes back to that list (to the empty list when absent) |
| Output.WriteResultToConsole | src/Output.ts:33-61 | no line exactly for a 200 with errors only and no externals; a line otherwise, in the colour `getTextColor` picks |
| Output.ParseSuccessFields | src/Output.ts:47 | for a url without a line break and resources whose tag names have no line break and whose fields have no comma, the success text cuts back into the url and the external resources |
| Output.ParseSuccessOf | src/Output.ts:47 | for a url without a line break and an externals text that is empty or starts on a new line and decodes, the text reads back as the url and the decoded resources |
| Output.SuccessLineRoundTrip | src/Output.ts:41-49 | a written 200 line for a url without a line break and resources as in ParseSuccessFields gives back the url and the resources |
| Output.CutFourLines | src/Output.ts:52-57 | four lines without line breaks, and an externals text that is empty or starts on a new line, are cut apart again |
| Output.ParseErrorFields | src/Output.ts:52-57 | when url, status text and referer have no line break and the resources are as in ParseSuccessFields, the labelled lines give back url, status, status text and referer, and the text after them gives back the external resources |
| Output.ParseErrorOf | src/Output.ts:52-57 | when url, status text and referer have no line break and the externals text is empty or starts on a new line and decodes, the labelled fields and the decoded resources read back |
| Output.ErrorLineRoundTrip | src/Output.ts:50-60 | a non-200 line is always written and is red; when url, status text and referer have no line break and the resources are as in ParseSuccessFields, it gives back url, status, status text, referer and the external resources |
| Strings.Join | src/Output.ts:29 | undone by splitting at the separator when no part holds it (SplitJoin); no parts give the empty string and one part gives itself |
| Strings.SplitJoin | src/Output.ts:29 | splitting undoes the comma join of an array turned into a string, when no part has a comma |
| Strings.JoinSplit | src/Output.ts:29 | joining the parts of any split gives back the string |
| Strings.NatToString | src/Output.ts:54 | non-empty decimal digits without a leading zero |
| Strings.IntToString | src/Output.ts:54 | a minus sign exactly for a negative number, and otherwise only decimal digits, without a leading zero |
| Strings.ParseNatToString | src/Output.ts:54 | the digits of a natural number read back as that number |
| Strings.ParseIntToString | src/Output.ts:54 | the rendering of a status reads back as that status |
| Seqs.Filter | src/Crawler.ts:74-76 | the elements that pass and no others, in their order; no longer than the input; free of repeats if the input is; the input itself when everything passes |
| Seqs.FilterMultiset | src/Crawler.ts:62 | every occurrence of an element that passes is kept and none of one that fails, so repeated links stay repeated |
| Script.Init | src/index.ts:16-17 | the script starts valid with `[startUrl]` and nothing crawled |
| Script.AddToUncrawled | src/index.ts:22-31 | an admissible url (not in the array, not crawled, under the start url) is appended; anything else changes nothing; the invariant is kept |
| Script.AppendIfValid | src/index.ts:30 | appending an admissible url keeps the invariant |
| Script.AddAll | src/index.ts:65 | the array only grows at its end, keeps the invariant, gains only links, and ends up holding every admissible link |
| Script.ResponseLines | src/index.ts:51-57 | one green `url: ` line for 200; otherwise three red lines: the rule of dashes, `url:` and the url, and `status:` followed by the status in plain decimal, which reads back as the response's status |
| Script.HandleResponse | src/index.ts:50-75 | the array is what adding the links makes it (the slice reassignment changes nothing); the url at the position is crawled with the status; new entries are links; every in-scope link is in the array or crawled; the invariant is kept; the lines are those of that url |
| Script.HandleFrom | src/index.ts:83 | the array only grows at its end while responses are handled; the HandleFrom lemmas below state the rest |
| Script.LinesOfConcat | src/index.ts:83 | the lines of two batches in a row are the lines of each |
| Script.HandleOne | src/index.ts:71-74 | handling one position leaves the later positions naming the same, still uncrawled urls |
| Script.HandleFromFrontier | src/index.ts:67-70 | handling a round keeps the invariant and crawls exactly the urls at the handled positions, leaving old records unchanged |
| Script.HandleFromKeeps | src/index.ts:67-70 | crawl records from before the round are untouched |
| Script.HandleFromStatuses | src/index.ts:67-70 | each url at a handled position is recorded with the status of the response at that position |
| Script.HandleFromWithin | src/index.ts:65 | the array stays inside a url set closed under in-scope links |
| Script.HandleFromLinks | src/index.ts:58-66 | every in-scope link of a handled page is in the array or crawled after the round |
| Script.HandleFromLines | src/index.ts:51-57 | the round's lines are those of its urls in request order |
| Script.DropCrawled | src/index.ts:79 | the filter removes exactly the crawled urls, keeps the order of the rest and keeps the invariant |
| Script.Round | src/index.ts:79-84 | a round keeps the start url; its effect is stated by RoundFrontier, RoundProgress and RoundLogs |
| Script.RoundBatch | src/index.ts:79-81 | after the filter the whole array is one batch of uncrawled urls |
| Script.RoundFrontier | src/index.ts:78-85 | a round keeps the invariant, the known links and the url set, leaves old records unchanged, and crawls exactly the filtered array |
| Script.RoundProgress | src/index.ts:78-85 | a round crawls a url of the set not crawled before, or crawls nothing and shrinks the array |
| Script.RoundLogs | src/index.ts:79-84 | the fetch log stays free of repeats and equal to the crawled set with matching statuses, and the lines are those of the fetched urls in order |
| Script.RoundStep | src/index.ts:78-85 | a round keeps the loop invariant and decreases the loop measure |
| Script.MainStart | src/index.ts:16-17 | the initial state satisfies the loop invariant |
| Script.MainDone | src/index.ts:78 | with the array empty, the start url is crawled, everything crawled is in scope, and every in-scope link of a crawled page is crawled |
| Script.Run | src/index.ts:77-86 | `main` ends with the array empty, no url fetched twice, the fetched urls exactly the crawled ones, each in scope with its response's status, the start url crawled, the crawled set closed under in-scope links, and the lines those of the fetched urls in fetch order |

## Left out

- The HTTP client is the parameter `fetch`. Headers, redirects, timeouts
  and the client's own configuration are not modelled. A request that
  fails is a `Failure` carrying the error's message.
- Concurrency of the batch requests is not modelled. `axios.all` delivers
  the responses in request order, so a batch is the sequence of its
  settled outcomes.
- HTML parsing (`node-html-parser`) is the parameter `anchors`. Its
  leniency and its handling of malformed markup are not modelled.
- Command-line handling, `exit`, and the missing-url message of
  `src/index.ts` (lines 10-14) are left out. The start url is a
  parameter.
- Console output is the returned sequence of lines. The `await` sequencing
  of rounds is not modelled.
- `response.data` is a string or absent. A body that axios parsed into a
  JSON object is not modelled, and neither is its truthiness.
- `response.config.url || ''` is modelled as the url that was requested.
  Both the client and the `catch` of `src/Crawler.ts` set it so, and
  parsing it back is not modelled.
- Object keys are plain strings in insertion order. JavaScript's ordering
  of integer-like keys is not modelled. Prototype names such as
  `constructor` are also not modelled; they read as truthy on an empty
  object.
- Crawler.Crawl: termination and the closure properties are stated
  relative to a finite url set closed under in-scope links. A site with
  unboundedly many distinct in-scope links would make `crawl` run
  forever, and that case is not modelled.
- Script.Run: termination is stated relative to the same kind of finite,
  link-closed url set.
- Script.HandleResponse: requires the position to lie inside the array.
  The script only calls it from `forEach` over the responses of the
  current array, which has one response per element.
- `src/index.ts` defines its own `greenText` and `redText` (lines 47-48).
  They are character for character those of `src/Output.ts`, and the
  model uses one definition of each.
- Output.WriteResultToConsole: the status is written as plain decimal
  digits, as JavaScript writes an integer whose magnitude is below 10^21
  and exact as a number (below 2^53); every HTTP status and the `catch`
  status 0 are such integers. The exponent form JavaScript uses from
  10^21 on, the rounding of larger integers, non-integral numbers, `NaN`
  and `Infinity` are not modelled.
- Output.ParseSuccessFields, Output.ParseErrorFields,
  Output.SuccessLineRoundTrip, Output.ErrorLineRoundTrip: the console text
  has no escaping, so a url, status text or referer with a line break, or
  a resource field with a comma (or a tag name with a line break), cannot
  be read back; the round trips are stated without them.
- Crawler.Crawl: states, for each fetch, whether a report was written,
  not its text. The text, with its referer, is stated per round by
  Crawler.RoundReports.

=== FILE: crawler.dfy ===
/** `crawl` of `src/Crawler.ts`, an async function that keeps its two
    records in closures: handling of one response, the pruning at the top
    of each round, a round over a whole batch, and the crawl loop. The
    transport is the parameter `fetch` and HTML anchor extraction the
    parameter `anchors`; the reporter's console output is collected as the
    sequence of lines it would write. */
module Crawler {
  import opened Wrappers
  import opened Strings
  import opened Seqs
  import opened Fetch
  import opened Output
  import opened Links
  import opened Frontier

  /** `uncrawledUrls[url]?.referer` as it appears in the report: the
      pending entry's referer, or the text `undefined` without one. */
  function RefererOf(f: State, url: string): (referer: string)
    ensures url in f.pending ==> referer == f.pending[url].referer
    ensures url !in f.pending ==> referer == "undefined"
  {
    if url in f.pending then f.pending[url].referer else "undefined"
  }

  /** The line the reporter writes for `url`, before the state changes:
      the reporter's line with the referer of the url's pending entry, or
      with the text `undefined` when it has none. */
  function Report(f: State, url: string, response: Outcome, showErrorsOnly: bool): (line: Option<string>)
    ensures url in f.pending ==>
      line == WriteResultToConsole(url, f.pending[url].referer, response, showErrorsOnly, None)
    ensures url !in f.pending ==> line == WriteResultToConsole(url, "undefined", response, showErrorsOnly, None)
  {
    WriteResultToConsole(url, RefererOf(f, url), response, showErrorsOnly, None)
  }

  /** `handleResponse`'s state change: every link of the body is offered to
      the frontier with `url` as referer, then `url` is recorded as crawled
      with the response's status and leaves the pending urls. */
  function HandleResponse(f: State, url: string, response: Outcome, anchors: string -> seq<Option<string>>): (r: State)
    ensures r.startUrl == f.startUrl
    ensures url in r.crawled && r.crawled[url].status == response.status
    ensures url !in r.pending
    ensures r.crawled.Keys == f.crawled.Keys + {url}
    ensures forall k :: k in f.crawled && k != url ==> r.crawled[k] == f.crawled[k]
    ensures forall k :: k in f.pending && k != url ==> k in r.pending && r.pending[k] == f.pending[k]
    ensures forall k :: k in r.pending ==> k in f.pending || r.pending[k].referer == url
    ensures forall k :: k in r.pending && k !in f.pending ==> k in PageLinks(f.startUrl, response, anchors)
    ensures forall l :: l in PageLinks(f.startUrl, response, anchors) && StartsWith(l, f.startUrl) ==>
      l in r.pending || l in r.crawled
    ensures Valid(f) && url in f.pending ==> Valid(r)
  {
    var g := EnqueueAll(f, PageLinks(f.startUrl, response, anchors), url);
    MarkCrawled(g, url, response.status)
  }

  /** `handleResponse` keeps the key order: the keys are a subsequence of
      the old keys followed by the page's links. */
  lemma HandleResponseKeys(f: State, url: string, response: Outcome, anchors: string -> seq<Option<string>>)
    ensures IsSubseq(HandleResponse(f, url, response, anchors).keys, f.keys + PageLinks(f.startUrl, response, anchors))
  {
    var links := PageLinks(f.startUrl, response, anchors);
    var g := EnqueueAll(f, links, url);
    KeysInOrder(f.keys, g.keys, MarkCrawled(g, url, response.status).keys, links);
  }

  /** For a pending url the key order is exact, and it is the order the
      next round fetches in: the old keys less the url, in their order,
      then the keys the page's links added, which EnqueueAllFirstOrder
      orders by first occurrence in the links. */
  lemma HandleResponseOldKeys(f: State, url: string, response: Outcome, anchors: string -> seq<Option<string>>)
    requires url in f.pending
    ensures HandleResponse(f, url, response, anchors).keys
      == Delete(f, url).keys + EnqueueAll(f, PageLinks(f.startUrl, response, anchors), url).keys[|f.keys|..]
  {
    var links := PageLinks(f.startUrl, response, anchors);
    var g := EnqueueAll(f, links, url);
    var h := g.(crawled := g.crawled[url := CrawledUrl(url, response.status)]);
    assert HandleResponse(f, url, response, anchors) == Delete(h, url);
    EnqueueAllFirstOrder(f, links, url);
    DeleteAfterAdded(f, h, url);
  }

  /** Deleting a url that none of the added keys names deletes it from the
      old keys and keeps the added ones. */
  lemma DeleteAfterAdded(f: State, h: State, url: string)
    requires f.keys <= h.keys
    requires forall k :: k in h.keys[|f.keys|..] ==> k != url
    ensures Delete(h, url).keys == Delete(f, url).keys + h.keys[|f.keys|..]
  {
    var added := h.keys[|f.keys|..];
    assert h.keys == f.keys + added;
    FilterConcat(f.keys, added, (k: string) => k != url);
    assert forall i :: 0 <= i < |added| ==> added[i] != url by {
      forall i | 0 <= i < |added| ensures added[i] != url {
        assert added[i] in added;
      }
    }
  }

  /** Keys that follow the old keys in link order, less some deleted ones,
      stay in the order of the old keys followed by the links. */
  lemma KeysInOrder(fk: seq<string>, gk: seq<string>, rk: seq<string>, links: seq<string>)
    requires fk <= gk && IsSubseq(gk[|fk|..], links) && IsSubseq(rk, gk)
    ensures IsSubseq(rk, fk + links)
  {
    assert gk == fk + gk[|fk|..];
    SubseqPrefix(fk, gk[|fk|..], links);
    SubseqTrans(rk, gk, fk + links);
  }

  /** The start of each round: pending urls that are already crawled are
      deleted, and the others keep their order. Under the frontier
      invariant there are none, so pruning changes nothing. */
  function Prune(f: State): (r: State)
    ensures r.startUrl == f.startUrl && r.crawled == f.crawled
    ensures r.pending.Keys == f.pending.Keys - f.crawled.Keys
    ensures forall k :: k in r.pending ==> r.pending[k] == f.pending[k]
    ensures IsSubseq(r.keys, f.keys)
    ensures forall k :: k in r.keys <==> k in f.keys && k !in f.crawled
    ensures Valid(f) ==> r == f
  {
    var keys := Filter(f.keys, (k: string) => k !in f.crawled);
    var r := f.(keys := keys, pending := f.pending - f.crawled.Keys);
    assert Valid(f) ==> r.pending == f.pending;
    r
  }

  /** `batch` lists pending urls, none twice: what a round fetches. */
  ghost predicate IsBatch(f: State, batch: seq<string>) {
    NoDup(batch) && forall u :: u in batch ==> u in f.pending
  }

  /** `responses.forEach(handleResponse)`: the batch's responses handled in
      request order, each reported (as the state is before it) and then
      applied to the frontier. */
  function HandleAll(
    f: State, batch: seq<string>, outcomes: seq<Outcome>,
    anchors: string -> seq<Option<string>>, showErrorsOnly: bool
  ): (res: (State, seq<Option<string>>))
    requires |batch| == |outcomes|
    ensures |res.1| == |batch| && res.0.startUrl == f.startUrl
    decreases |batch|
  {
    if |batch| == 0 then (f, [])
    else
      var line := Report(f, batch[0], outcomes[0], showErrorsOnly);
      var g := HandleResponse(f, batch[0], outcomes[0], anchors);
      var rest := HandleAll(g, batch[1..], outcomes[1..], anchors, showErrorsOnly);
      (rest.0, [line] + rest.1)
  }

  /** Handling the first url of a batch leaves the rest a batch of the new
      frontier. */
  lemma HandleFirst(f: State, batch: seq<string>, response: Outcome, anchors: string -> seq<Option<string>>)
    requires Valid(f) && IsBatch(f, batch) && |batch| > 0
    ensures Valid(HandleResponse(f, batch[0], response, anchors))
    ensures IsBatch(HandleResponse(f, batch[0], response, anchors), batch[1..])
    ensures batch[0] !in batch[1..]
    ensures forall u :: u in batch <==> u == batch[0] || u in batch[1..]
  {
    var g := HandleResponse(f, batch[0], response, anchors);
    NoDupTail(batch);
    forall u | u in batch[1..] ensures u in g.pending {
      assert u in batch && u != batch[0];
    }
  }

  /** After a round's responses are handled the frontier invariant still
      holds and the crawled urls are the earlier ones plus the batch. */
  lemma {:induction false} HandleAllValid(
    f: State, batch: seq<string>, outcomes: seq<Outcome>,
    anchors: string -> seq<Option<string>>, showErrorsOnly: bool)
    requires |batch| == |outcomes|
    requires Valid(f) && IsBatch(f, batch)
    ensures var r := HandleAll(f, batch, outcomes, anchors, showErrorsOnly).0;
      && Valid(r)
      && (forall k :: k in r.crawled <==> k in f.crawled || k in batch)
    decreases |batch|
  {
    if |batch| > 0 {
      var g := HandleResponse(f, batch[0], outcomes[0], anchors);
      HandleFirst(f, batch, outcomes[0], anchors);
      HandleAllValid(g, batch[1..], outcomes[1..], anchors, showErrorsOnly);
    }
  }

  /** Crawl records made before the round are untouched. */
  lemma {:induction false} HandleAllKeeps(
    f: State, batch: seq<string>, outcomes: seq<Outcome>,
    anchors: string -> seq<Option<string>>, showErrorsOnly: bool)
    requires |batch| == |outcomes|
    requires Valid(f) && IsBatch(f, batch)
    ensures var r := HandleAll(f, batch, outcomes, anchors, showErrorsOnly).0;
      forall k :: k in f.crawled ==> k in r.crawled && r.crawled[k] == f.crawled[k]
    decreases |batch|
  {
    if |batch| > 0 {
      var g := HandleResponse(f, batch[0], outcomes[0], anchors);
      HandleFirst(f, batch, outcomes[0], anchors);
      HandleAllKeeps(g, batch[1..], outcomes[1..], anchors, showErrorsOnly);
    }
  }

  /** Each batch url is recorded with the status of its own response. */
  lemma {:induction false} HandleAllStatuses(
    f: State, batch: seq<string>, outcomes: seq<Outcome>,
    anchors: string -> seq<Option<string>>, showErrorsOnly: bool)
    requires |batch| == |outcomes|
    requires Valid(f) && IsBatch(f, batch)
    ensures var r := HandleAll(f, batch, outcomes, anchors, showErrorsOnly).0;
      forall i :: 0 <= i < |batch| ==> batch[i] in r.crawled && r.crawled[batch[i]].status == outcomes[i].status
    decreases |batch|
  {
    if |batch| > 0 {
      var g := HandleResponse(f, batch[0], outcomes[0], anchors);
      var rest := HandleAll(g, batch[1..], outcomes[1..], anchors, showErrorsOnly).0;
      assert HandleAll(f, batch, outcomes, anchors, showErrorsOnly).0 == rest;
      HandleFirst(f, batch, outcomes[0], anchors);
      HandleAllKeeps(g, batch[1..], outcomes[1..], anchors, showErrorsOnly);
      HandleAllStatuses(g, batch[1..], outcomes[1..], anchors, showErrorsOnly);
      forall i | 0 <= i < |batch|
        ensures batch[i] in rest.crawled && rest.crawled[batch[i]].status == outcomes[i].status
      {
        if i > 0 {
          assert batch[i] == batch[1..][i - 1] && outcomes[i] == outcomes[1..][i - 1];
        }
      }
    }
  }

  /** Pending urls outside the batch keep their entries through the round,
      and a url pending or crawled before it is pending or crawled after. */
  lemma {:induction false} HandleAllPending(
    f: State, batch: seq<string>, outcomes: seq<Outcome>,
    anchors: string -> seq<Option<string>>, showErrorsOnly: bool)
    requires |batch| == |outcomes|
    requires Valid(f) && IsBatch(f, batch)
    ensures var r := HandleAll(f, batch, outcomes, anchors, showErrorsOnly).0;
      && (forall k :: k in f.pending && k !in batch ==> k in r.pending && r.pending[k] == f.pending[k])
      && (forall k :: k in f.pending || k in f.crawled ==> k in r.pending || k in r.crawled)
    decreases |batch|
  {
    if |batch| > 0 {
      var g := HandleResponse(f, batch[0], outcomes[0], anchors);
      HandleFirst(f, batch, outcomes[0], anchors);
      HandleAllPending(g, batch[1..], outcomes[1..], anchors, showErrorsOnly);
    }
  }

  /** Every in-scope link found on a page of the batch is pending or
      crawled once the round is over. */
  lemma {:induction false} HandleAllLinks(
    f: State, batch: seq<string>, outcomes: seq<Outcome>,
    anchors: string -> seq<Option<string>>, showErrorsOnly: bool)
    requires |batch| == |outcomes|
    requires Valid(f) && IsBatch(f, batch)
    ensures var r := HandleAll(f, batch, outcomes, anchors, showErrorsOnly).0;
      forall i, l ::
        (0 <= i < |batch| && l in PageLinks(f.startUrl, outcomes[i], anchors) && StartsWith(l, f.startUrl))
        ==> l in r.pending || l in r.crawled
    decreases |batch|
  {
    if |batch| > 0 {
      var g := HandleResponse(f, batch[0], outcomes[0], anchors);
      var rest := HandleAll(g, batch[1..], outcomes[1..], anchors, showErrorsOnly);
      assert HandleAll(f, batch, outcomes, anchors, showErrorsOnly) == (rest.0, [Report(f, batch[0], outcomes[0], showErrorsOnly)] + rest.1);
      HandleFirst(f, batch, outcomes[0], anchors);
      HandleAllLinks(g, batch[1..], outcomes[1..], anchors, showErrorsOnly);
      HandleAllPending(g, batch[1..], outcomes[1..], anchors, showErrorsOnly);
      forall i | 1 <= i < |batch|
        ensures outcomes[i] == outcomes[1..][i - 1]
      {
      }
    }
  }

  /** Each url of the batch is reported with the referer of its first
      discovery, never the `undefined` fallback. */
  lemma {:induction false} HandleAllReports(
    f: State, batch: seq<string>, outcomes: seq<Outcome>,
    anchors: string -> seq<Option<string>>, showErrorsOnly: bool)
    requires |batch| == |outcomes|
    requires Valid(f) && IsBatch(f, batch)
    ensures var lines := HandleAll(f, batch, outcomes, anchors, showErrorsOnly).1;
      forall i :: 0 <= i < |batch| ==>
        lines[i] == WriteResultToConsole(batch[i], f.pending[batch[i]].referer, outcomes[i], showErrorsOnly, None)
    decreases |batch|
  {
    if |batch| > 0 {
      var g := HandleResponse(f, batch[0], outcomes[0], anchors);
      var rest := HandleAll(g, batch[1..], outcomes[1..], anchors, showErrorsOnly);
      var lines := HandleAll(f, batch, outcomes, anchors, showErrorsOnly).1;
      assert lines == [Report(f, batch[0], outcomes[0], showErrorsOnly)] + rest.1;
      HandleFirst(f, batch, outcomes[0], anchors);
      HandleAllReports(g, batch[1..], outcomes[1..], anchors, showErrorsOnly);
      forall i | 0 <= i < |batch|
        ensures lines[i] == WriteResultToConsole(batch[i], f.pending[batch[i]].referer, outcomes[i], showErrorsOnly, None)
      {
        if i > 0 {
          assert lines[i] == rest.1[i - 1];
          assert batch[i] == batch[1..][i - 1] && outcomes[i] == outcomes[1..][i - 1];
          assert batch[i] in batch[1..];
          assert g.pending[batch[i]] == f.pending[batch[i]];
        }
      }
    }
  }

  /** Urls that turn up pending during a round are links of the round's
      pages; so a set of urls holding the frontier and closed under those
      links still holds it afterwards. */
  lemma {:induction false} HandleAllWithin(
    f: State, batch: seq<string>, outcomes: seq<Outcome>,
    anchors: string -> seq<Option<string>>, showErrorsOnly: bool, universe: set<string>)
    requires |batch| == |outcomes|
    requires Valid(f) && IsBatch(f, batch)
    requires f.pending.Keys <= universe && f.crawled.Keys <= universe
    requires forall i, l ::
      (0 <= i < |batch| && l in PageLinks(f.startUrl, outcomes[i], anchors) && StartsWith(l, f.startUrl))
      ==> l in universe
    ensures var r := HandleAll(f, batch, outcomes, anchors, showErrorsOnly).0;
      r.pending.Keys <= universe && r.crawled.Keys <= universe
    decreases |batch|
  {
    if |batch| > 0 {
      var g := HandleResponse(f, batch[0], outcomes[0], anchors);
      var rest := HandleAll(g, batch[1..], outcomes[1..], anchors, showErrorsOnly);
      assert HandleAll(f, batch, outcomes, anchors, showErrorsOnly) == (rest.0, [Report(f, batch[0], outcomes[0], showErrorsOnly)] + rest.1);
      HandleFirst(f, batch, outcomes[0], anchors);
      forall k | k in g.pending ensures k in universe {
        if k !in f.pending {
          assert k in PageLinks(f.startUrl, outcomes[0], anchors);
          assert StartsWith(k, f.startUrl);
        }
      }
      forall i, l |
        (0 <= i < |batch[1..]| && l in PageLinks(g.startUrl, outcomes[1..][i], anchors) && StartsWith(l, g.startUrl))
        ensures l in universe
      {
        assert outcomes[1..][i] == outcomes[i + 1];
      }
      HandleAllWithin(g, batch[1..], outcomes[1..], anchors, showErrorsOnly, universe);
    }
  }

  /** Every in-scope link of every crawled page is pending or crawled. */
  ghost predicate LinksKnown(f: State, fetch: string -> Transport, anchors: string -> seq<Option<string>>) {
    forall c, l ::
      (c in f.crawled && l in PageLinks(f.startUrl, Settle(fetch(c)), anchors) && StartsWith(l, f.startUrl))
      ==> l in f.pending || l in f.crawled
  }

  /** `universe` contains every in-scope link of its own pages. */
  ghost predicate Closed(universe: set<string>, startUrl: string, fetch: string -> Transport, anchors: string -> seq<Option<string>>) {
    forall u, l ::
      (u in universe && l in PageLinks(startUrl, Settle(fetch(u)), anchors) && StartsWith(l, startUrl))
      ==> l in universe
  }

  /** A round of fetches keeps every in-scope link of every crawled page
      pending or crawled. */
  lemma RoundKeepsLinksKnown(
    f: State, batch: seq<string>, fetch: string -> Transport,
    anchors: string -> seq<Option<string>>, showErrorsOnly: bool)
    requires Valid(f) && IsBatch(f, batch) && LinksKnown(f, fetch, anchors)
    ensures LinksKnown(HandleAll(f, batch, FetchAll(fetch, batch), anchors, showErrorsOnly).0, fetch, anchors)
  {
    var outcomes := FetchAll(fetch, batch);
    var r := HandleAll(f, batch, outcomes, anchors, showErrorsOnly).0;
    HandleAllValid(f, batch, outcomes, anchors, showErrorsOnly);
    HandleAllPending(f, batch, outcomes, anchors, showErrorsOnly);
    HandleAllLinks(f, batch, outcomes, anchors, showErrorsOnly);
    forall c, l |
      c in r.crawled && l in PageLinks(r.startUrl, Settle(fetch(c)), anchors) && StartsWith(l, r.startUrl)
      ensures l in r.pending || l in r.crawled
    {
      if c in f.crawled {
        assert l in f.pending || l in f.crawled;
      } else {
        var i :| 0 <= i < |batch| && batch[i] == c;
        assert outcomes[i] == Settle(fetch(c));
      }
    }
  }

  /** One iteration of the crawl loop: prune, fetch every pending url,
      handle the responses in request order. Gives the new frontier, the
      urls fetched and the lines reported. */
  function Round(
    f: State, fetch: string -> Transport,
    anchors: string -> seq<Option<string>>, showErrorsOnly: bool
  ): (res: (State, seq<string>, seq<Option<string>>))
    ensures |res.2| == |res.1| && res.0.startUrl == f.startUrl
  {
    var p := Prune(f);
    var batch := p.keys;
    var handled := HandleAll(p, batch, FetchAll(fetch, batch), anchors, showErrorsOnly);
    (handled.0, batch, handled.1)
  }

  /** What holds between rounds of a crawl from `startUrl` inside
      `universe`, given what has been fetched and reported so far. */
  ghost predicate CrawlInv(
    f: State, fetched: seq<string>, lines: seq<Option<string>>,
    startUrl: string, showErrorsOnly: bool,
    fetch: string -> Transport, anchors: string -> seq<Option<string>>, universe: set<string>)
  {
    && Valid(f) && f.startUrl == startUrl
    && f.pending.Keys <= universe && f.crawled.Keys <= universe
    && NoDup(fetched) && (forall u :: u in fetched <==> u in f.crawled)
    && (startUrl in f.pending || startUrl in f.crawled)
    && (forall u :: u in f.crawled ==> f.crawled[u].status == Settle(fetch(u)).status)
    && LinksKnown(f, fetch, anchors)
    && |lines| == |fetched|
    && (forall i :: 0 <= i < |fetched| ==>
          (lines[i].None? <==> Settle(fetch(fetched[i])).status == 200 && showErrorsOnly))
  }

  /** A round on a valid frontier fetches exactly the pending urls, in key
      order, all of them not yet crawled. */
  lemma RoundBatch(f: State, fetch: string -> Transport, anchors: string -> seq<Option<string>>, showErrorsOnly: bool)
    requires Valid(f)
    ensures Prune(f) == f
    ensures Round(f, fetch, anchors, showErrorsOnly).1 == f.keys
    ensures IsBatch(f, f.keys)
    ensures forall u :: u in f.keys ==> u !in f.crawled
  {
  }

  /** The frontier part of one round: the invariant, the universe and the
      known links are kept. */
  lemma RoundFrontier(
    f: State, fetch: string -> Transport, anchors: string -> seq<Option<string>>,
    showErrorsOnly: bool, universe: set<string>)
    requires Valid(f) && LinksKnown(f, fetch, anchors)
    requires f.pending.Keys <= universe && f.crawled.Keys <= universe
    requires Closed(universe, f.startUrl, fetch, anchors)
    ensures var r := Round(f, fetch, anchors, showErrorsOnly).0;
      && Valid(r) && LinksKnown(r, fetch, anchors)
      && r.pending.Keys <= universe && r.crawled.Keys <= universe
      && (forall k :: k in f.pending || k in f.crawled ==> k in r.pending || k in r.crawled)
  {
    RoundBatch(f, fetch, anchors, showErrorsOnly);
    var batch := f.keys;
    var outcomes := FetchAll(fetch, batch);
    assert Round(f, fetch, anchors, showErrorsOnly).0 == HandleAll(f, batch, outcomes, anchors, showErrorsOnly).0;
    HandleAllValid(f, batch, outcomes, anchors, showErrorsOnly);
    HandleAllPending(f, batch, outcomes, anchors, showErrorsOnly);
    forall i, l |
      (0 <= i < |batch| && l in PageLinks(f.startUrl, outcomes[i], anchors) && StartsWith(l, f.startUrl))
      ensures l in universe
    {
      assert batch[i] in f.pending;
    }
    HandleAllWithin(f, batch, outcomes, anchors, showErrorsOnly, universe);
    RoundKeepsLinksKnown(f, batch, fetch, anchors, showErrorsOnly);
  }

  /** Every round on a non-empty frontier crawls a url of the universe that
      was not crawled before. */
  lemma RoundProgress(
    f: State, fetch: string -> Transport, anchors: string -> seq<Option<string>>,
    showErrorsOnly: bool, universe: set<string>)
    requires Valid(f) && |f.keys| > 0
    requires f.pending.Keys <= universe
    ensures var r := Round(f, fetch, anchors, showErrorsOnly).0;
      |universe - r.crawled.Keys| < |universe - f.crawled.Keys|
  {
    RoundBatch(f, fetch, anchors, showErrorsOnly);
    var batch := f.keys;
    var outcomes := FetchAll(fetch, batch);
    var r := HandleAll(f, batch, outcomes, anchors, showErrorsOnly).0;
    assert Round(f, fetch, anchors, showErrorsOnly).0 == r;
    HandleAllValid(f, batch, outcomes, anchors, showErrorsOnly);
    assert batch[0] in batch;
    SetShrinks(universe, f.crawled.Keys, r.crawled.Keys, batch[0]);
  }

  /** The fetch log of one round: the log stays free of repeats and in step
      with the crawl records, whose statuses are those of the responses. */
  lemma RoundFetched(
    f: State, fetched: seq<string>, fetch: string -> Transport,
    anchors: string -> seq<Option<string>>, showErrorsOnly: bool)
    requires Valid(f) && NoDup(fetched) && (forall u :: u in fetched <==> u in f.crawled)
    requires forall u :: u in f.crawled ==> f.crawled[u].status == Settle(fetch(u)).status
    ensures var res := Round(f, fetch, anchors, showErrorsOnly);
      && NoDup(fetched + res.1)
      && (forall u :: u in fetched + res.1 <==> u in res.0.crawled)
      && (forall u :: u in res.0.crawled ==> res.0.crawled[u].status == Settle(fetch(u)).status)
  {
    RoundBatch(f, fetch, anchors, showErrorsOnly);
    var batch := f.keys;
    var outcomes := FetchAll(fetch, batch);
    var r := HandleAll(f, batch, outcomes, anchors, showErrorsOnly).0;
    assert Round(f, fetch, anchors, showErrorsOnly) == (r, batch, HandleAll(f, batch, outcomes, anchors, showErrorsOnly).1);
    HandleAllValid(f, batch, outcomes, anchors, showErrorsOnly);
    HandleAllKeeps(f, batch, outcomes, anchors, showErrorsOnly);
    HandleAllStatuses(f, batch, outcomes, anchors, showErrorsOnly);
    ConcatNoDup(fetched, batch);
    forall u | u in r.crawled ensures r.crawled[u].status == Settle(fetch(u)).status {
      if u !in f.crawled {
        var i :| 0 <= i < |batch| && batch[i] == u;
      }
    }
  }

  /** The report log of one round: one line per fetch, absent exactly for a
      200 response when only errors are shown. */
  lemma RoundLines(
    f: State, fetched: seq<string>, lines: seq<Option<string>>, fetch: string -> Transport,
    anchors: string -> seq<Option<string>>, showErrorsOnly: bool)
    requires Valid(f) && |lines| == |fetched|
    requires forall i :: 0 <= i < |fetched| ==>
      (lines[i].None? <==> Settle(fetch(fetched[i])).status == 200 && showErrorsOnly)
    ensures var res := Round(f, fetch, anchors, showErrorsOnly);
      forall i :: 0 <= i < |fetched + res.1| ==>
        ((lines + res.2)[i].None? <==> Settle(fetch((fetched + res.1)[i])).status == 200 && showErrorsOnly)
  {
    RoundBatch(f, fetch, anchors, showErrorsOnly);
    var batch := f.keys;
    var outcomes := FetchAll(fetch, batch);
    var rs := HandleAll(f, batch, outcomes, anchors, showErrorsOnly).1;
    assert Round(f, fetch, anchors, showErrorsOnly).1 == batch;
    assert Round(f, fetch, anchors, showErrorsOnly).2 == rs;
    HandleAllReports(f, batch, outcomes, anchors, showErrorsOnly);
    var all := lines + rs;
    forall i | 0 <= i < |fetched + batch|
      ensures (all[i].None? <==> Settle(fetch((fetched + batch)[i])).status == 200 && showErrorsOnly)
    {
      if i >= |fetched| {
        assert all[i] == rs[i - |fetched|];
        assert (fetched + batch)[i] == batch[i - |fetched|];
      }
    }
  }

  /** The reports of one round: the report of each fetched url is what the
      reporter writes for that url's own response, with the referer its
      pending entry held when the round started. */
  lemma RoundReports(
    f: State, fetch: string -> Transport, anchors: string -> seq<Option<string>>, showErrorsOnly: bool)
    requires Valid(f)
    ensures var res := Round(f, fetch, anchors, showErrorsOnly);
      && (forall i :: 0 <= i < |res.1| ==> res.1[i] in f.pending)
      && (forall i :: 0 <= i < |res.1| ==>
            res.2[i] == WriteResultToConsole(res.1[i], f.pending[res.1[i]].referer,
                                             Settle(fetch(res.1[i])), showErrorsOnly, None))
  {
    RoundBatch(f, fetch, anchors, showErrorsOnly);
    var batch := f.keys;
    var outcomes := FetchAll(fetch, batch);
    assert Round(f, fetch, anchors, showErrorsOnly).1 == batch;
    assert Round(f, fetch, anchors, showErrorsOnly).2 == HandleAll(f, batch, outcomes, anchors, showErrorsOnly).1;
    HandleAllReports(f, batch, outcomes, anchors, showErrorsOnly);
    forall i | 0 <= i < |batch| ensures batch[i] in f.pending {
      assert batch[i] in batch;
    }
  }

  /** A round keeps the crawl invariant and crawls at least one url of the
      universe that was not crawled before. */
  lemma RoundStep(
    f: State, fetched: seq<string>, lines: seq<Option<string>>,
    startUrl: string, showErrorsOnly: bool,
    fetch: string -> Transport, anchors: string -> seq<Option<string>>, universe: set<string>)
    requires CrawlInv(f, fetched, lines, startUrl, showErrorsOnly, fetch, anchors, universe)
    requires Closed(universe, startUrl, fetch, anchors)
    requires |f.keys| > 0
    ensures var res := Round(f, fetch, anchors, showErrorsOnly);
      && CrawlInv(res.0, fetched + res.1, lines + res.2, startUrl, showErrorsOnly, fetch, anchors, universe)
      && |universe - res.0.crawled.Keys| < |universe - f.crawled.Keys|
  {
    var res := Round(f, fetch, anchors, showErrorsOnly);
    assert Valid(f) && LinksKnown(f, fetch, anchors) && f.startUrl == startUrl;
    RoundFrontier(f, fetch, anchors, showErrorsOnly, universe);
    RoundProgress(f, fetch, anchors, showErrorsOnly, universe);
    RoundFetched(f, fetched, fetch, anchors, showErrorsOnly);
    RoundLines(f, fetched, lines, fetch, anchors, showErrorsOnly);
    assert |lines + res.2| == |fetched + res.1|;
  }

  /** The loop starts with the invariant. */
  lemma CrawlStart(
    startUrl: string, showErrorsOnly: bool,
    fetch: string -> Transport, anchors: string -> seq<Option<string>>, universe: set<string>)
    requires startUrl in universe
    ensures CrawlInv(Init(startUrl), [], [], startUrl, showErrorsOnly, fetch, anchors, universe)
  {
  }

  /** When nothing is pending the invariant gives what `crawl` promises. */
  lemma CrawlDone(
    f: State, fetched: seq<string>, lines: seq<Option<string>>,
    startUrl: string, showErrorsOnly: bool,
    fetch: string -> Transport, anchors: string -> seq<Option<string>>, universe: set<string>)
    requires CrawlInv(f, fetched, lines, startUrl, showErrorsOnly, fetch, anchors, universe) && f.keys == []
    ensures f.pending == map[]
    ensures startUrl in f.crawled
    ensures forall u :: u in f.crawled ==> StartsWith(u, startUrl)
    ensures forall c, l ::
      (c in f.crawled && l in PageLinks(startUrl, Settle(fetch(c)), anchors) && StartsWith(l, startUrl))
      ==> l in f.crawled
  {
    assert f.pending.Keys == {};
  }

  /** `crawl`: rounds run while urls are pending. Each round prunes the
      pending urls, fetches all of them, and handles the responses in
      request order. Given a set of urls that holds the start url and every
      in-scope link of its pages, the crawl ends: every round crawls at
      least one url of that set that was not crawled before. When it ends
      nothing is pending, no url was fetched twice, exactly the fetched urls
      are crawled, each with the status of its response, only urls under the
      start url were fetched, and every in-scope link of every crawled page
      was crawled. One line per fetch is reported; it is left out exactly
      for a 200 response when only errors are shown. */
  method Crawl(
    startUrl: string, showErrorsOnly: bool,
    fetch: string -> Transport, anchors: string -> seq<Option<string>>,
    ghost universe: set<string>)
    returns (f: State, fetched: seq<string>, lines: seq<Option<string>>)
    requires startUrl in universe && Closed(universe, startUrl, fetch, anchors)
    ensures Valid(f) && f.startUrl == startUrl
    ensures f.pending == map[] && f.keys == []
    ensures NoDup(fetched)
    ensures forall u :: u in fetched <==> u in f.crawled
    ensures startUrl in f.crawled
    ensures forall u :: u in f.crawled ==>
      StartsWith(u, startUrl) && f.crawled[u].status == Settle(fetch(u)).status
    ensures forall c, l ::
      (c in f.crawled && l in PageLinks(startUrl, Settle(fetch(c)), anchors) && StartsWith(l, startUrl))
      ==> l in f.crawled
    ensures |lines| == |fetched|
    ensures forall i :: 0 <= i < |fetched| ==>
      (lines[i].None? <==> Settle(fetch(fetched[i])).status == 200 && showErrorsOnly)
  {
    f := Init(startUrl);
    fetched := [];
    lines := [];
    CrawlStart(startUrl, showErrorsOnly, fetch, anchors, universe);
    while |f.keys| > 0
      invariant CrawlInv(f, fetched, lines, startUrl, showErrorsOnly, fetch, anchors, universe)
      decreases |universe - f.crawled.Keys|
    {
      RoundStep(f, fetched, lines, startUrl, showErrorsOnly, fetch, anchors, universe);
      var res := Round(f, fetch, anchors, showErrorsOnly);
      f, fetched, lines := res.0, fetched + res.1, lines + res.2;
    }
    CrawlDone(f, fetched, lines, startUrl, showErrorsOnly, fetch, anchors, universe);
  }
}

=== FILE: fetch.dfy ===
/** The HTTP side of a crawl, as the crawler sees it. The transport itself
    is a parameter (`fetch`); this module fixes how its two kinds of result
    are turned into the one response shape the crawler handles. */
module Fetch {
  import opened Wrappers

  /** What one GET can end in: an HTTP response with any status (the client
      is configured to accept every status), or a transport failure (DNS,
      refused connection, timeout, TLS) carrying the error's message. */
  datatype Transport =
    | Response(status: int, statusText: string, data: Option<string>)
    | Failure(message: string)

  /** The response shape `handleResponse` receives. */
  datatype Outcome = Outcome(status: int, statusText: string, body: Option<string>)

  /** The per-request `catch`: a transport failure is never an error for the
      batch, it becomes a response with status 0, the error's message as
      status text and no body. */
  function Settle(t: Transport): (o: Outcome)
    ensures t.Failure? ==> o.status == 0 && o.statusText == t.message && o.body.None?
    ensures t.Response? ==> o.status == t.status && o.statusText == t.statusText && o.body == t.data
  {
    match t
    case Response(status, text, data) => Outcome(status, text, data)
    case Failure(message) => Outcome(0, message, None)
  }

  /** JavaScript truthiness of `response.data`: present and not the empty
      string. */
  predicate HasBody(o: Outcome) {
    o.body.Some? && o.body.value != ""
  }

  /** `if (response.data)` on a settled outcome holds exactly when the
      request got a response with a non-empty body, so a failed request
      never has its links read. */
  lemma SettleBody(t: Transport)
    ensures HasBody(Settle(t)) <==> t.Response? && t.data.Some? && t.data.value != ""
  {
  }

  /** One batch: every url is requested and the outcomes are delivered in
      request order, whatever order the requests completed in. */
  function FetchAll(fetch: string -> Transport, urls: seq<string>): (outcomes: seq<Outcome>)
    ensures |outcomes| == |urls|
    ensures forall i :: 0 <= i < |urls| ==> outcomes[i] == Settle(fetch(urls[i]))
  {
    seq(|urls|, i requires 0 <= i < |urls| => Settle(fetch(urls[i])))
  }
}

=== FILE: frontier.dfy ===
/** The crawl frontier of `crawl` (`src/Crawler.ts`): the record of crawled
    urls and the record of urls discovered but not yet crawled. JavaScript
    objects keep the insertion order of their (non-numeric) keys, so the
    pending record is a map together with the sequence of its keys in
    insertion order; deleting a key removes it from that sequence. */
module Frontier {
  import opened Strings
  import opened Seqs

  datatype CrawledUrl = CrawledUrl(url: string, status: int)

  datatype UncrawledUrl = UncrawledUrl(url: string, referer: string)

  datatype State = State(
    startUrl: string,
    crawled: map<string, CrawledUrl>,
    keys: seq<string>,
    pending: map<string, UncrawledUrl>)

  /** The frontier invariant: the key order lists exactly the pending urls,
      once each; every record sits under its own url; no url is both
      pending and crawled; and every url in either record lies under the
      start url. */
  ghost predicate Valid(f: State) {
    && NoDup(f.keys)
    && (forall k :: k in f.keys <==> k in f.pending)
    && (forall k :: k in f.pending ==>
          f.pending[k].url == k && k !in f.crawled && StartsWith(k, f.startUrl))
    && (forall k :: k in f.crawled ==> f.crawled[k].url == k && StartsWith(k, f.startUrl))
  }

  /** A crawl starts with the start url pending, as its own referer, and
      nothing crawled. */
  function Init(startUrl: string): (f: State)
    ensures Valid(f)
    ensures f.startUrl == startUrl && f.crawled == map[]
    ensures f.keys == [startUrl]
    ensures f.pending.Keys == {startUrl} && f.pending[startUrl].referer == startUrl
  {
    State(startUrl, map[], [startUrl], map[startUrl := UncrawledUrl(startUrl, startUrl)])
  }

  /** The test `addToUncrawledUrls` makes before inserting. */
  predicate Admits(f: State, url: string) {
    url !in f.pending && url !in f.crawled && StartsWith(url, f.startUrl)
  }

  /** `addToUncrawledUrls`: a url that is neither pending nor crawled and
      lies under the start url becomes the last pending entry, with
      `referer`; anything else leaves the frontier as it is. */
  function Enqueue(f: State, url: string, referer: string): (r: State)
    ensures r.startUrl == f.startUrl && r.crawled == f.crawled
    ensures Admits(f, url) ==>
      r.keys == f.keys + [url] && r.pending == f.pending[url := UncrawledUrl(url, referer)]
    ensures !Admits(f, url) ==> r == f
    ensures Valid(f) ==> Valid(r)
  {
    if Admits(f, url) then
      var r := f.(keys := f.keys + [url], pending := f.pending[url := UncrawledUrl(url, referer)]);
      EnqueueValid(f, url, referer, r);
      r
    else f
  }

  /** Adding an admissible url keeps the frontier invariant. */
  lemma EnqueueValid(f: State, url: string, referer: string, r: State)
    requires Admits(f, url)
    requires r == f.(keys := f.keys + [url], pending := f.pending[url := UncrawledUrl(url, referer)])
    ensures Valid(f) ==> Valid(r)
  {
    if Valid(f) {
      AppendNoDup(f.keys, url);
    }
  }

  /** A second discovery of a url changes nothing: the first referer stays,
      and enqueueing twice is enqueueing once. */
  lemma FirstDiscovererWins(f: State, url: string, first: string, second: string)
    ensures Enqueue(Enqueue(f, url, first), url, second) == Enqueue(f, url, first)
    ensures url in Enqueue(f, url, first).pending ==>
      Enqueue(Enqueue(f, url, first), url, second).pending[url].referer
        == (if url in f.pending then f.pending[url].referer else first)
  {
  }

  /** `links.forEach(link => addToUncrawledUrls(link, referer))`. */
  function EnqueueAll(f: State, links: seq<string>, referer: string): (r: State)
    ensures r.startUrl == f.startUrl && r.crawled == f.crawled
    ensures Valid(f) ==> Valid(r)
    ensures f.keys <= r.keys
    ensures forall k :: k in f.pending ==> k in r.pending && r.pending[k] == f.pending[k]
    ensures forall k :: k in r.pending && k !in f.pending ==> k in links && r.pending[k].referer == referer
    ensures forall l :: l in links && l !in f.crawled && StartsWith(l, f.startUrl) ==> l in r.pending
    ensures IsSubseq(r.keys[|f.keys|..], links)
    decreases |links|
  {
    if |links| == 0 then f
    else
      var g := Enqueue(f, links[0], referer);
      var r := EnqueueAll(g, links[1..], referer);
      assert forall l :: l in links ==> l == links[0] || l in links[1..];
      NewKeysInOrder(f.keys, g.keys, r.keys, links);
      r
  }

  /** As `forEach` calls `addToUncrawledUrls` link by link, the new keys
      are admissible urls in the order of their first occurrence in the
      links: a repeated link adds nothing the second time. */
  lemma {:induction false} EnqueueAllFirstOrder(f: State, links: seq<string>, referer: string)
    ensures var r := EnqueueAll(f, links, referer);
      && (forall k :: k in r.keys[|f.keys|..] ==> Admits(f, k))
      && InFirstOrder(r.keys[|f.keys|..], links)
    decreases |links|
  {
    if |links| > 0 {
      var g := Enqueue(f, links[0], referer);
      var r := EnqueueAll(g, links[1..], referer);
      EnqueueAllFirstOrder(g, links[1..], referer);
      NewKeysFirstOrder(f, g, r.keys, links);
    }
  }

  /** The keys one link and then the rest of the links add come in the
      order of the links. */
  lemma NewKeysInOrder(fk: seq<string>, gk: seq<string>, rk: seq<string>, links: seq<string>)
    requires |links| > 0 && gk <= rk
    requires gk == fk || gk == fk + [links[0]]
    requires IsSubseq(rk[|gk|..], links[1..])
    ensures IsSubseq(rk[|fk|..], links)
  {
    if gk == fk {
      SubseqOfTail(rk[|fk|..], links);
    } else {
      assert rk[|fk|..][0] == links[0];
      assert rk[|fk|..][1..] == rk[|gk|..];
    }
  }

  /** The same keys come in the order of the first occurrence of each in
      the links, and each was admissible before the first link. */
  lemma NewKeysFirstOrder(f: State, g: State, rk: seq<string>, links: seq<string>)
    requires |links| > 0 && g.keys <= rk
    requires g.startUrl == f.startUrl && g.crawled == f.crawled && f.pending.Keys <= g.pending.Keys
    requires || (Admits(f, links[0]) && g.keys == f.keys + [links[0]] && links[0] in g.pending)
             || (!Admits(f, links[0]) && g == f)
    requires forall k :: k in rk[|g.keys|..] ==> Admits(g, k)
    requires InFirstOrder(rk[|g.keys|..], links[1..])
    ensures forall k :: k in rk[|f.keys|..] ==> Admits(f, k)
    ensures InFirstOrder(rk[|f.keys|..], links)
  {
    var rest := rk[|g.keys|..];
    assert links[0] !in rest;
    if g == f {
      InFirstOrderTail(rest, links);
    } else {
      assert rk[|f.keys|..] == [links[0]] + rest;
      InFirstOrderCons(rest, links);
    }
  }

  /** `delete uncrawledUrls[url]`. */
  function Delete(f: State, url: string): (r: State)
    ensures r.startUrl == f.startUrl && r.crawled == f.crawled
    ensures r.pending == f.pending - {url}
    ensures IsSubseq(r.keys, f.keys)
    ensures forall k :: k in r.keys <==> k in f.keys && k != url
  {
    f.(keys := Filter(f.keys, (k: string) => k != url), pending := f.pending - {url})
  }

  /** Records `url` as crawled with `status` and removes it from the pending
      urls. */
  function MarkCrawled(f: State, url: string, status: int): (r: State)
    ensures r.startUrl == f.startUrl
    ensures r.crawled == f.crawled[url := CrawledUrl(url, status)]
    ensures r.pending == f.pending - {url}
    ensures IsSubseq(r.keys, f.keys)
    ensures Valid(f) && StartsWith(url, f.startUrl) ==> Valid(r)
  {
    var r := Delete(f.(crawled := f.crawled[url := CrawledUrl(url, status)]), url);
    assert NoDup(f.keys) ==> NoDup(r.keys);
    r
  }
}

=== FILE: links.dfy ===
/** Link discovery on a fetched page, identical in `crawl` (`src/Crawler.ts`)
    and in the script version: every anchor's `href` (or `''` when the
    attribute is missing), made absolute when site-relative, with empty
    results dropped. HTML parsing is the parameter `anchors`, which gives
    the optional `href` of every `a` element of a body, in document order. */
module Links {
  import opened Wrappers
  import opened Strings
  import opened Seqs
  import opened Fetch

  /** `getFullUrl`: a reference starting with `/` is appended to the start
      url; anything else is kept as it is. */
  function GetFullUrl(startUrl: string, href: string): (url: string)
    ensures StartsWith(href, "/") ==> StartsWith(url, startUrl) && url[|startUrl|..] == href
    ensures !StartsWith(href, "/") ==> url == href
    ensures |url| >= |href| && url[|url| - |href|..] == href
    ensures url == "" <==> href == ""
  {
    if StartsWith(href, "/") then startUrl + href else href
  }

  /** `a.getAttribute('href') || ''`: a missing attribute reads as `''`. */
  function HrefOrEmpty(href: Option<string>): (h: string)
    ensures href.None? ==> h == ""
    ensures href.Some? ==> h == href.value
  {
    href.GetOr("")
  }

  /** The `map` step: the full url of every anchor, in document order. */
  function FullUrls(startUrl: string, hrefs: seq<Option<string>>): (urls: seq<string>)
    ensures |urls| == |hrefs|
    ensures forall i :: 0 <= i < |hrefs| ==> urls[i] == GetFullUrl(startUrl, HrefOrEmpty(hrefs[i]))
  {
    seq(|hrefs|, i requires 0 <= i < |hrefs| => GetFullUrl(startUrl, HrefOrEmpty(hrefs[i])))
  }

  /** The `filter` step's test `it !== ''`. */
  predicate NonEmpty(url: string) {
    url != ""
  }

  /** The links of one page, in document order: the absolute form of every
      non-empty `href`, and nothing else (the `map` then `filter` of the
      source, fused). */
  function ExtractLinks(startUrl: string, hrefs: seq<Option<string>>): (links: seq<string>)
    ensures "" !in links
    ensures |links| <= |hrefs|
    ensures forall i :: 0 <= i < |hrefs| && HrefOrEmpty(hrefs[i]) != "" ==>
      GetFullUrl(startUrl, HrefOrEmpty(hrefs[i])) in links
  {
    if |hrefs| == 0 then []
    else
      var url := GetFullUrl(startUrl, HrefOrEmpty(hrefs[0]));
      var rest := ExtractLinks(startUrl, hrefs[1..]);
      assert forall i :: 1 <= i < |hrefs| ==> hrefs[i] == hrefs[1..][i - 1];
      if url == "" then rest else [url] + rest
  }

  /** Every link comes from some non-empty `href` of the page. */
  lemma {:induction false} ExtractLinksSound(startUrl: string, hrefs: seq<Option<string>>, l: string)
    requires l in ExtractLinks(startUrl, hrefs)
    ensures exists i :: 0 <= i < |hrefs| && HrefOrEmpty(hrefs[i]) != "" && l == GetFullUrl(startUrl, HrefOrEmpty(hrefs[i]))
  {
    var url := GetFullUrl(startUrl, HrefOrEmpty(hrefs[0]));
    if url != "" && l == url {
      assert HrefOrEmpty(hrefs[0]) != "";
    } else {
      ExtractLinksSound(startUrl, hrefs[1..], l);
      var i :| 0 <= i < |hrefs[1..]| && HrefOrEmpty(hrefs[1..][i]) != "" && l == GetFullUrl(startUrl, HrefOrEmpty(hrefs[1..][i]));
      assert hrefs[1..][i] == hrefs[i + 1];
    }
  }

  /** The fused definition is the `map` followed by the `filter` of the
      source: same links, same order, same repeats. */
  lemma {:induction false} ExtractLinksMapFilter(startUrl: string, hrefs: seq<Option<string>>)
    ensures ExtractLinks(startUrl, hrefs) == Filter(FullUrls(startUrl, hrefs), NonEmpty)
  {
    if |hrefs| > 0 {
      var all := FullUrls(startUrl, hrefs);
      var url := GetFullUrl(startUrl, HrefOrEmpty(hrefs[0]));
      var rest := ExtractLinks(startUrl, hrefs[1..]);
      assert ExtractLinks(startUrl, hrefs) == if url == "" then rest else [url] + rest;
      ExtractLinksMapFilter(startUrl, hrefs[1..]);
      assert all[1..] == FullUrls(startUrl, hrefs[1..]);
      assert all[0] == url;
      FilterCons(all, NonEmpty);
    }
  }

  /** The links `handleResponse` follows from one response (the
      `if (response.data)` guard around the extraction): none when the body
      is absent or empty, otherwise the non-empty full urls of the body's
      anchors. */
  function PageLinks(startUrl: string, response: Outcome, anchors: string -> seq<Option<string>>): (links: seq<string>)
    ensures !HasBody(response) ==> links == []
    ensures "" !in links
    ensures HasBody(response) ==>
      forall i :: 0 <= i < |anchors(response.body.value)| && HrefOrEmpty(anchors(response.body.value)[i]) != "" ==>
        GetFullUrl(startUrl, HrefOrEmpty(anchors(response.body.value)[i])) in links
  {
    if HasBody(response) then ExtractLinks(startUrl, anchors(response.body.value)) else []
  }
}

=== FILE: output.dfy ===
/** The reporter's pure decisions: which colour a result line gets, whether
    a line is written at all, and its exact text. Writing to the console is
    replaced by returning the line. Every rendering comes with a reader that
    gets the rendered values back. */
module Output {
  import opened Wrappers
  import opened Strings
  import opened Fetch

  const Esc: char := 27 as char
  const GreenCode: string := [Esc] + "[32m"
  const RedCode: string := [Esc] + "[31m"
  const ResetCode: string := [Esc] + "[0m"

  datatype Color = Green | Red

  /** A reference from a crawled page to something hosted outside the start
      site. The crawler declares the type; only these two fields are read. */
  datatype ExternalResource = ExternalResource(tagName: string, externalUrl: string)

  /** Reads back a line written by `GreenText` or `RedText`. */
  function Uncolor(s: string): Option<(Color, string)> {
    if |s| < |GreenCode| + |ResetCode| || s[|s| - |ResetCode|..] != ResetCode then None
    else if StartsWith(s, GreenCode) then Some((Green, s[|GreenCode|..|s| - |ResetCode|]))
    else if StartsWith(s, RedCode) then Some((Red, s[|RedCode|..|s| - |ResetCode|]))
    else None
  }

  function GreenText(text: string): (s: string)
    ensures Uncolor(s) == Some((Green, text))
  {
    var s := GreenCode + text + ResetCode;
    assert s[|GreenCode|..|s| - |ResetCode|] == text;
    assert s[|s| - |ResetCode|..] == ResetCode;
    s
  }

  function RedText(text: string): (s: string)
    ensures Uncolor(s) == Some((Red, text))
  {
    var s := RedCode + text + ResetCode;
    assert s[|RedCode|..|s| - |ResetCode|] == text;
    assert s[|s| - |ResetCode|..] == ResetCode;
    assert s[3] == '1' && GreenCode[3] == '2';
    s
  }

  function Paint(c: Color, text: string): (s: string)
    ensures Uncolor(s) == Some((c, text))
  {
    match c
    case Green => GreenText(text)
    case Red => RedText(text)
  }

  /** The list is present and not empty (JavaScript's
      `resources && resources.length > 0`). */
  predicate HasExternals(resources: Option<seq<ExternalResource>>) {
    resources.Some? && |resources.value| > 0
  }

  /** A result is shown in red when the page did not answer 200 or has
      external resources to report, and in green otherwise. */
  function GetTextColor(status: int, resources: Option<seq<ExternalResource>>): (c: Color)
    ensures c == Red <==> status != 200 || HasExternals(resources)
    ensures c == Green <==> status == 200 && !HasExternals(resources)
  {
    if status != 200 || HasExternals(resources) then Red else Green
  }

  const TagLabel: string := "\t\ttag name: "
  const UrlLabel: string := "\n\t\treference url: "
  const ExternalsHeader: string := "\n\texternal resources:\n"

  /** Reads back the text of one resource. */
  function DecodeResource(s: string): Option<ExternalResource> {
    if !StartsWith(s, TagLabel) then None
    else
      var rest := s[|TagLabel|..];
      var i := IndexOf(rest, '\n');
      if StartsWith(rest[i..], UrlLabel)
      then Some(ExternalResource(rest[..i], rest[i + |UrlLabel|..]))
      else None
  }

  /** Two labelled lines, tag name first. The text determines the resource
      whenever the tag name has no line break. */
  function SingleResourceToString(resource: ExternalResource): (s: string)
    ensures '\n' !in resource.tagName ==> DecodeResource(s) == Some(resource)
    ensures ',' !in resource.tagName && ',' !in resource.externalUrl ==> ',' !in s
  {
    var s := TagLabel + resource.tagName + UrlLabel + resource.externalUrl;
    SingleFacts(resource, s);
    s
  }

  /** Both facts of `SingleResourceToString` about its text. */
  lemma SingleFacts(resource: ExternalResource, s: string)
    requires s == TagLabel + resource.tagName + UrlLabel + resource.externalUrl
    ensures '\n' !in resource.tagName ==> DecodeResource(s) == Some(resource)
    ensures ',' !in resource.tagName && ',' !in resource.externalUrl ==> ',' !in s
  {
    if '\n' !in resource.tagName {
      DecodeSingle(resource, s);
    }
    if ',' !in resource.tagName && ',' !in resource.externalUrl {
      SingleNoComma(resource, s);
    }
  }

  /** The tag name ends at the first line break, the url follows its label. */
  lemma DecodeSingle(resource: ExternalResource, s: string)
    requires s == TagLabel + resource.tagName + UrlLabel + resource.externalUrl
    requires '\n' !in resource.tagName
    ensures DecodeResource(s) == Some(resource)
  {
    var tail := UrlLabel + resource.externalUrl;
    var rest := resource.tagName + tail;
    assert s == TagLabel + rest;
    assert StartsWith(s, TagLabel);
    assert s[|TagLabel|..] == rest;
    IndexOfConcat(resource.tagName, tail, '\n');
    assert rest[|resource.tagName|..] == tail;
    assert rest[..|resource.tagName|] == resource.tagName;
    assert StartsWith(tail, UrlLabel);
    assert tail[|UrlLabel|..] == resource.externalUrl;
  }

  /** Neither label holds a comma, so the text has none unless a field does. */
  lemma SingleNoComma(resource: ExternalResource, s: string)
    requires s == TagLabel + resource.tagName + UrlLabel + resource.externalUrl
    requires ',' !in resource.tagName && ',' !in resource.externalUrl
    ensures ',' !in s
  {
    assert ',' !in TagLabel + resource.tagName;
    assert ',' !in TagLabel + resource.tagName + UrlLabel;
  }

  /** The `map` of `singleResourceToString` over the resources. */
  function RenderAll(resources: seq<ExternalResource>): (parts: seq<string>)
    ensures |parts| == |resources|
    ensures forall i :: 0 <= i < |resources| ==> parts[i] == SingleResourceToString(resources[i])
  {
    seq(|resources|, i requires 0 <= i < |resources| => SingleResourceToString(resources[i]))
  }

  /** Empty when the list is absent or empty; otherwise a header followed by
      the resources' texts joined with commas (how JavaScript turns an array
      into a string). */
  function ExternalResourcesToString(resources: Option<seq<ExternalResource>>): (s: string)
    ensures s == "" <==> !HasExternals(resources)
    ensures HasExternals(resources) ==> StartsWith(s, ExternalsHeader)
  {
    if !HasExternals(resources) then ""
    else ExternalsHeader + Join(RenderAll(resources.value), ",")
  }

  /** Reads back every resource text of a list, or nothing if one fails. */
  function DecodeAll(parts: seq<string>): Option<seq<ExternalResource>> {
    if |parts| == 0 then Some([])
    else
      match (DecodeResource(parts[0]), DecodeAll(parts[1..]))
      case (Some(r), Some(rs)) => Some([r] + rs)
      case _ => None
  }

  /** Reads back the output of `ExternalResourcesToString`. */
  function DecodeExternals(s: string): Option<seq<ExternalResource>> {
    if s == "" then Some([])
    else if !StartsWith(s, ExternalsHeader) then None
    else DecodeAll(Split(s[|ExternalsHeader|..], ','))
  }

  /** Fields the text format can carry unambiguously. */
  predicate Printable(resources: seq<ExternalResource>) {
    forall k :: 0 <= k < |resources| ==>
      '\n' !in resources[k].tagName && ',' !in resources[k].tagName && ',' !in resources[k].externalUrl
  }

  /** Decoding a list whose first text and rest both decode. */
  lemma DecodeAllCons(p: string, ps: seq<string>, r: ExternalResource, rs: seq<ExternalResource>)
    requires DecodeResource(p) == Some(r) && DecodeAll(ps) == Some(rs)
    ensures DecodeAll([p] + ps) == Some([r] + rs)
  {
    assert ([p] + ps)[1..] == ps;
  }

  /** Rendering a list is rendering its head, then its tail. */
  lemma RenderAllCons(resources: seq<ExternalResource>)
    requires |resources| > 0
    ensures RenderAll(resources) == [SingleResourceToString(resources[0])] + RenderAll(resources[1..])
  {
    var a := RenderAll(resources);
    var b := [SingleResourceToString(resources[0])] + RenderAll(resources[1..]);
    forall i | 0 <= i < |a| ensures a[i] == b[i] {
      if i > 0 {
        assert resources[1..][i - 1] == resources[i];
      }
    }
  }

  /** The tail of a printable list is printable. */
  lemma PrintableTail(resources: seq<ExternalResource>)
    requires |resources| > 0 && Printable(resources)
    ensures Printable(resources[1..]) && '\n' !in resources[0].tagName
  {
    var rest := resources[1..];
    forall k | 0 <= k < |rest|
      ensures '\n' !in rest[k].tagName && ',' !in rest[k].tagName && ',' !in rest[k].externalUrl
    {
      assert rest[k] == resources[k + 1];
    }
  }

  /** The texts of a printable list decode back to the list. */
  lemma {:induction false} DecodeAllRender(resources: seq<ExternalResource>)
    requires Printable(resources)
    ensures DecodeAll(RenderAll(resources)) == Some(resources)
  {
    if |resources| > 0 {
      var rest := resources[1..];
      PrintableTail(resources);
      DecodeAllRender(rest);
      RenderAllCons(resources);
      DecodeAllCons(SingleResourceToString(resources[0]), RenderAll(rest), resources[0], rest);
      assert resources == [resources[0]] + rest;
    }
  }

  /** The externals text determines the list it was made from. */
  lemma ExternalsRoundTrip(resources: Option<seq<ExternalResource>>)
    requires resources.Some? ==> Printable(resources.value)
    ensures DecodeExternals(ExternalResourcesToString(resources)) == Some(resources.GetOr([]))
  {
    if HasExternals(resources) {
      var parts := RenderAll(resources.value);
      var s := ExternalResourcesToString(resources);
      assert s[|ExternalsHeader|..] == Join(parts, ",");
      assert forall k :: 0 <= k < |parts| ==> ',' !in parts[k];
      SplitJoin(parts, ',');
      DecodeAllRender(resources.value);
    }
  }

  /** The text of a result line: for status 200 a line is written only when
      not restricted to errors or when there are external resources, and it
      names the url; for any other status a red line is always written with
      the url, status, status text and referer, in that order. The externals
      text ends either kind of line. */
  function WriteResultToConsole(
    url: string,
    referer: string,
    response: Outcome,
    showErrorsOnly: bool,
    resources: Option<seq<ExternalResource>>
  ): (line: Option<string>)
    ensures line.None? <==> response.status == 200 && showErrorsOnly && !HasExternals(resources)
    ensures line.Some? ==>
      Uncolor(line.value).Some? && Uncolor(line.value).value.0 == GetTextColor(response.status, resources)
  {
    var color := GetTextColor(response.status, resources);
    if response.status == 200 then
      if !showErrorsOnly || HasExternals(resources)
      then Some(Paint(color, "url: " + url + ExternalResourcesToString(resources)))
      else None
    else
      Some(RedText(
        ("url: " + url + "\n")
        + ("\tstatus: " + IntToString(response.status) + "\n")
        + ("\tstatus text: " + response.statusText + "\n")
        + ("\treferer: " + referer)
        + ExternalResourcesToString(resources)))
  }

  /** The text before the first line break, and the rest from that line
      break on (empty when there is none). */
  function CutLine(s: string): (r: (string, string))
    ensures r.0 + r.1 == s
    ensures '\n' !in r.0
    ensures r.1 == "" || r.1[0] == '\n'
  {
    var i := IndexOf(s, '\n');
    assert s[..i] + s[i..] == s;
    (s[..i], s[i..])
  }

  /** A line without line breaks followed by a text that is empty or starts
      with a line break is cut exactly there. */
  lemma CutLineOf(a: string, r: string)
    requires '\n' !in a
    requires r == "" || r[0] == '\n'
    ensures CutLine(a + r) == (a, r)
  {
    if r == "" {
      assert a + r == a;
    } else {
      IndexOfConcat(a, r, '\n');
    }
    assert (a + r)[..|a|] == a && (a + r)[|a|..] == r;
  }

  /** Reads back the uncoloured text of a status-200 line: the url runs to
      the first line break, the rest is the externals text. */
  function ParseSuccessText(text: string): Option<(string, seq<ExternalResource>)> {
    if !StartsWith(text, "url: ") then None
    else
      var cut := CutLine(text[5..]);
      match DecodeExternals(cut.1)
      case Some(rs) => Some((cut.0, rs))
      case None => None
  }

  /** Cuts an error text into its first four lines and what follows the
      fourth (empty, or starting with a line break). */
  function CutErrorText(text: string): Option<(string, string, string, string, string)> {
    var c0 := CutLine(text);
    if c0.1 == "" then None
    else
      var c1 := CutLine(c0.1[1..]);
      if c1.1 == "" then None
      else
        var c2 := CutLine(c1.1[1..]);
        if c2.1 == "" then None
        else
          var c3 := CutLine(c2.1[1..]);
          Some((c0.0, c1.0, c2.0, c3.0, c3.1))
  }

  /** Reads back the uncoloured text of an error line: four labelled lines,
      then the externals text. */
  function ParseErrorText(text: string): Option<(string, int, string, string, seq<ExternalResource>)> {
    match CutErrorText(text)
    case None => None
    case Some((l0, l1, l2, l3, ext)) =>
      if StartsWith(l0, "url: ") && StartsWith(l1, "\tstatus: ")
        && StartsWith(l2, "\tstatus text: ") && StartsWith(l3, "\treferer: ")
      then
        match DecodeExternals(ext)
        case Some(rs) => Some((l0[5..], ParseInt(l1[9..]), l2[14..], l3[10..], rs))
        case None => None
      else None
  }

  /** A status-200 text whose url has no line break, followed by any text
      that is empty or starts with a line break: the url is cut off at the
      first line break and the rest goes to the externals reader. */
  lemma ParseSuccessOf(url: string, ext: string, rs: seq<ExternalResource>)
    requires '\n' !in url
    requires ext == "" || ext[0] == '\n'
    requires DecodeExternals(ext) == Some(rs)
    ensures ParseSuccessText("url: " + url + ext) == Some((url, rs))
  {
    var text := "url: " + url + ext;
    DropLabel("url: ", url, ext);
    CutLineOf(url, ext);
    ParseSuccessCut(text, url, ext, rs);
  }

  /** What follows a label in a text that starts with it. A proof step for
      ParseSuccessOf. */
  lemma DropLabel(prefix: string, x: string, y: string)
    ensures StartsWith(prefix + x + y, prefix)
    ensures (prefix + x + y)[|prefix|..] == x + y
  {
    assert prefix + x + y == prefix + (x + y);
  }

  /** Once the rest of a status-200 text is cut into the url and an
      externals text that decodes, the reader returns them. A proof step
      for ParseSuccessOf. */
  lemma ParseSuccessCut(text: string, url: string, ext: string, rs: seq<ExternalResource>)
    requires StartsWith(text, "url: ") && CutLine(text[5..]) == (url, ext)
    requires DecodeExternals(ext) == Some(rs)
    ensures ParseSuccessText(text) == Some((url, rs))
  {
  }

  /** The url ends at the first line break of a status-200 text. */
  lemma ParseSuccessFields(url: string, resources: Option<seq<ExternalResource>>)
    requires '\n' !in url
    requires resources.Some? ==> Printable(resources.value)
    ensures ParseSuccessText("url: " + url + ExternalResourcesToString(resources)) == Some((url, resources.GetOr([])))
  {
    var ext := ExternalResourcesToString(resources);
    assert ext != "" ==> ext[0] == ExternalsHeader[0] == '\n';
    ExternalsRoundTrip(resources);
    ParseSuccessOf(url, ext, resources.GetOr([]));
  }

  /** A status-200 line gives back the url and the external resources. */
  lemma SuccessLineRoundTrip(
    url: string, referer: string, response: Outcome, showErrorsOnly: bool,
    resources: Option<seq<ExternalResource>>)
    requires response.status == 200
    requires !showErrorsOnly || HasExternals(resources)
    requires '\n' !in url
    requires resources.Some? ==> Printable(resources.value)
    ensures var line := WriteResultToConsole(url, referer, response, showErrorsOnly, resources);
      && line.Some?
      && Uncolor(line.value).Some?
      && ParseSuccessText(Uncolor(line.value).value.1) == Some((url, resources.GetOr([])))
  {
    var text := "url: " + url + ExternalResourcesToString(resources);
    var color := GetTextColor(response.status, resources);
    assert WriteResultToConsole(url, referer, response, showErrorsOnly, resources) == Some(Paint(color, text));
    assert Uncolor(Paint(color, text)) == Some((color, text));
    ParseSuccessFields(url, resources);
  }

  /** Four lines without line breaks, each but the last followed by a line
      break, then a text that is empty or starts with a line break: the
      cut gives back the four lines and the text. */
  lemma CutFourLines(a: string, b: string, c: string, d: string, ext: string)
    requires '\n' !in a && '\n' !in b && '\n' !in c && '\n' !in d
    requires ext == "" || ext[0] == '\n'
    ensures CutErrorText((a + "\n") + (b + "\n") + (c + "\n") + d + ext) == Some((a, b, c, d, ext))
  {
    var x2 := d + ext;
    var x1 := c + ("\n" + x2);
    var x0 := b + ("\n" + x1);
    RegroupLines(a, b, c, d, ext);
    CutNext(a, x0);
    CutNext(b, x1);
    CutNext(c, x2);
    CutLineOf(d, ext);
  }

  /** The lines of an error text, each line break moved in front of the
      text that follows it. A proof step for CutFourLines. */
  lemma RegroupLines(a: string, b: string, c: string, d: string, ext: string)
    ensures (a + "\n") + (b + "\n") + (c + "\n") + d + ext == a + ("\n" + (b + ("\n" + (c + ("\n" + (d + ext))))))
  {
  }

  /** A line, a line break and a text: the cut gives the line, and the text
      follows the line break. */
  lemma CutNext(a: string, x: string)
    requires '\n' !in a
    ensures CutLine(a + ("\n" + x)) == (a, "\n" + x)
    ensures ("\n" + x)[1..] == x
  {
    CutLineOf(a, "\n" + x);
  }

  /** The labelled fields of an error report read back as written, and the
      text after them goes to the externals reader. */
  lemma ParseErrorOf(url: string, status: int, statusText: string, referer: string,
                     ext: string, rs: seq<ExternalResource>)
    requires '\n' !in url && '\n' !in statusText && '\n' !in referer
    requires ext == "" || ext[0] == '\n'
    requires DecodeExternals(ext) == Some(rs)
    ensures ParseErrorText(("url: " + url + "\n") + ("\tstatus: " + IntToString(status) + "\n")
                           + ("\tstatus text: " + statusText + "\n") + ("\treferer: " + referer) + ext)
            == Some((url, status, statusText, referer, rs))
  {
    var digits := IntToString(status);
    var l0, l1, l2, l3 := "url: " + url, "\tstatus: " + digits, "\tstatus text: " + statusText, "\treferer: " + referer;
    assert forall k :: 0 <= k < |digits| ==> digits[k] != '\n';
    assert '\n' !in l0 && '\n' !in l1 && '\n' !in l2 && '\n' !in l3;
    CutFourLines(l0, l1, l2, l3, ext);
    assert l0[5..] == url && l1[9..] == digits && l2[14..] == statusText && l3[10..] == referer;
    ParseIntToString(status);
    ParseErrorLines((l0 + "\n") + (l1 + "\n") + (l2 + "\n") + l3 + ext, l0, l1, l2, l3, ext, rs);
  }

  /** Once the text is cut into four labelled lines and an externals text
      that decodes, the fields are read off the lines. A proof step for
      ParseErrorOf. */
  lemma ParseErrorLines(text: string, l0: string, l1: string, l2: string, l3: string, ext: string,
                        rs: seq<ExternalResource>)
    requires CutErrorText(text) == Some((l0, l1, l2, l3, ext))
    requires StartsWith(l0, "url: ") && StartsWith(l1, "\tstatus: ")
    requires StartsWith(l2, "\tstatus text: ") && StartsWith(l3, "\treferer: ")
    requires DecodeExternals(ext) == Some(rs)
    ensures ParseErrorText(text) == Some((l0[5..], ParseInt(l1[9..]), l2[14..], l3[10..], rs))
  {
  }

  /** The labelled fields of an error report and its externals text read
      back as written. */
  lemma ParseErrorFields(url: string, status: int, statusText: string, referer: string,
                         resources: Option<seq<ExternalResource>>)
    requires '\n' !in url && '\n' !in statusText && '\n' !in referer
    requires resources.Some? ==> Printable(resources.value)
    ensures ParseErrorText(("url: " + url + "\n") + ("\tstatus: " + IntToString(status) + "\n")
                           + ("\tstatus text: " + statusText + "\n") + ("\treferer: " + referer)
                           + ExternalResourcesToString(resources))
            == Some((url, status, statusText, referer, resources.GetOr([])))
  {
    var ext := ExternalResourcesToString(resources);
    assert ext != "" ==> ext[0] == ExternalsHeader[0] == '\n';
    ExternalsRoundTrip(resources);
    ParseErrorOf(url, status, statusText, referer, ext, resources.GetOr([]));
  }

  /** A line for any other status is red and gives back url, status, status
      text, referer and the external resources, when the fields hold no line
      breaks. */
  lemma ErrorLineRoundTrip(
    url: string, referer: string, response: Outcome, showErrorsOnly: bool,
    resources: Option<seq<ExternalResource>>)
    requires response.status != 200
    requires '\n' !in url && '\n' !in response.statusText && '\n' !in referer
    requires resources.Some? ==> Printable(resources.value)
    ensures var line := WriteResultToConsole(url, referer, response, showErrorsOnly, resources);
      && line.Some?
      && Uncolor(line.value).Some?
      && Uncolor(line.value).value.0 == Red
      && ParseErrorText(Uncolor(line.value).value.1)
         == Some((url, response.status, response.statusText, referer, resources.GetOr([])))
  {
    var text := ("url: " + url + "\n") + ("\tstatus: " + IntToString(response.status) + "\n")
                + ("\tstatus text: " + response.statusText + "\n") + ("\treferer: " + referer)
                + ExternalResourcesToString(resources);
    assert WriteResultToConsole(url, referer, response, showErrorsOnly, resources) == Some(RedText(text));
    ParseErrorFields(url, response.status, response.statusText, referer, resources);
  }
}

=== FILE: script.dfy ===
/** The script version of the crawler: the pending urls are a plain array
    that only ever grows by appending, `handleResponse` addresses it by the
    response's position in the batch, and urls leave it only through the
    filter at the top of each round. The start url, a module global of the
    script, is a field of the state here. */
module Script {
  import opened Wrappers
  import opened Strings
  import opened Seqs
  import opened Fetch
  import opened Output
  import opened Links

  datatype CrawledPage = CrawledPage(url: string, status: int)

  datatype State = State(startUrl: string, crawled: map<string, CrawledPage>, uncrawled: seq<string>)

  /** The array never holds a url twice, and every url in it or in the
      crawl record lies under the start url. Unlike the pending record of
      `crawl`, the array keeps a crawled url until the next round's filter. */
  ghost predicate Valid(s: State) {
    && NoDup(s.uncrawled)
    && (forall u :: u in s.uncrawled ==> StartsWith(u, s.startUrl))
    && (forall k :: k in s.crawled ==> s.crawled[k].url == k && StartsWith(k, s.startUrl))
  }

  /** The script starts with `[startUrl]` and nothing crawled. */
  function Init(startUrl: string): (s: State)
    ensures Valid(s) && s.startUrl == startUrl
    ensures s.uncrawled == [startUrl] && s.crawled == map[]
  {
    State(startUrl, map[], [startUrl])
  }

  predicate Admits(s: State, url: string) {
    url !in s.uncrawled && url !in s.crawled && StartsWith(url, s.startUrl)
  }

  /** `addToUncrawledUrls`: a url not in the array, not crawled and under the
      start url is appended at the end; otherwise nothing changes. */
  function AddToUncrawled(s: State, url: string): (r: State)
    ensures Admits(s, url) ==> r.uncrawled == s.uncrawled + [url]
    ensures !Admits(s, url) ==> r == s
    ensures r.startUrl == s.startUrl && r.crawled == s.crawled
    ensures Valid(s) ==> Valid(r)
  {
    if Admits(s, url) then
      AppendIfValid(s, url);
      s.(uncrawled := s.uncrawled + [url])
    else s
  }

  /** Appending an admissible url keeps the invariant. */
  lemma AppendIfValid(s: State, url: string)
    requires Admits(s, url)
    ensures Valid(s) ==> Valid(s.(uncrawled := s.uncrawled + [url]))
  {
    if Valid(s) {
      AppendNoDup(s.uncrawled, url);
    }
  }

  /** `links.forEach(addToUncrawledUrls)`. */
  function AddAll(s: State, links: seq<string>): (r: State)
    ensures r.startUrl == s.startUrl && r.crawled == s.crawled
    ensures s.uncrawled <= r.uncrawled
    ensures Valid(s) ==> Valid(r)
    ensures forall u :: u in r.uncrawled ==> u in s.uncrawled || u in links
    ensures forall l :: l in links && l !in s.crawled && StartsWith(l, s.startUrl) ==> l in r.uncrawled
    decreases |links|
  {
    if |links| == 0 then s
    else
      var g := AddToUncrawled(s, links[0]);
      var r := AddAll(g, links[1..]);
      assert forall l :: l in links ==> l == links[0] || l in links[1..];
      assert links[0] in g.uncrawled || links[0] in s.crawled || !StartsWith(links[0], s.startUrl);
      PrefixKeeps(g.uncrawled, r.uncrawled);
      r
  }

  /** The red rule that opens the lines of a failed url. */
  const Rule: string := "-----------------------------------"

  /** The console lines `handleResponse` writes for the url at its
      position: one green line for status 200, otherwise a red rule and the
      url and the status on red lines of their own. */
  function ResponseLines(url: string, response: Outcome): (lines: seq<string>)
    ensures response.status == 200 ==> lines == [GreenText("url: " + url)]
    ensures response.status != 200 ==> (
      && |lines| == 3
      && (forall i :: 0 <= i < 3 ==> Uncolor(lines[i]).Some? && Uncolor(lines[i]).value.0 == Red)
      && Uncolor(lines[0]).value.1 == Rule
      && Uncolor(lines[1]).value.1 == "url:" + url
      && Uncolor(lines[2]).value.1 == "status:" + IntToString(response.status)
      && ParseInt(Uncolor(lines[2]).value.1[7..]) == response.status)
  {
    if response.status == 200 then [GreenText("url: " + url)]
    else
      var digits := IntToString(response.status);
      var status := "status:" + digits;
      PrefixParts("status:", digits);
      ParseIntToString(response.status);
      var rule, urlLine, statusLine := RedText(Rule), RedText("url:" + url), RedText(status);
      assert Uncolor(rule) == Some((Red, Rule));
      assert Uncolor(urlLine) == Some((Red, "url:" + url));
      assert Uncolor(statusLine) == Some((Red, status));
      [rule, urlLine, statusLine]
  }

  /** `handleResponse(response, index)`: writes the lines for the url at
      `index`, offers the page's links to the array, records
      `uncrawledUrls[index]` as crawled with the response's status, and
      reassigns the array to the concatenation of its two slices at
      `index`. Because the array only grew at its end, `index` still names
      the url it named before the links were added; and the reassignment
      leaves the array as it was. */
  function HandleResponse(s: State, response: Outcome, index: nat, anchors: string -> seq<Option<string>>)
    : (res: (State, seq<string>))
    requires index < |s.uncrawled|
    ensures res.0.startUrl == s.startUrl
    ensures s.uncrawled <= res.0.uncrawled
    ensures res.0.uncrawled == AddAll(s, PageLinks(s.startUrl, response, anchors)).uncrawled
    ensures res.0.crawled == s.crawled[s.uncrawled[index] := CrawledPage(s.uncrawled[index], response.status)]
    ensures forall u :: u in res.0.uncrawled ==> u in s.uncrawled || u in PageLinks(s.startUrl, response, anchors)
    ensures forall l :: l in PageLinks(s.startUrl, response, anchors) && StartsWith(l, s.startUrl) ==>
      l in res.0.uncrawled || l in s.crawled
    ensures Valid(s) ==> Valid(res.0)
    ensures res.1 == ResponseLines(s.uncrawled[index], response)
  {
    var lines := ResponseLines(s.uncrawled[index], response);
    var g := AddAll(s, PageLinks(s.startUrl, response, anchors));
    var url := g.uncrawled[index];
    var h := g.(crawled := g.crawled[url := CrawledPage(url, response.status)]);
    var r := h.(uncrawled := h.uncrawled[..index] + h.uncrawled[index..]);
    assert r.uncrawled == g.uncrawled;
    assert url == s.uncrawled[index];
    assert Valid(s) ==> url in s.uncrawled && StartsWith(url, s.startUrl);
    (r, lines)
  }

  /** `responses.forEach(handleResponse)` from position `i` on. */
  function HandleFrom(s: State, outcomes: seq<Outcome>, i: nat, anchors: string -> seq<Option<string>>)
    : (res: (State, seq<string>))
    requires i <= |outcomes| <= |s.uncrawled|
    ensures res.0.startUrl == s.startUrl
    ensures s.uncrawled <= res.0.uncrawled
    decreases |outcomes| - i
  {
    if i == |outcomes| then (s, [])
    else
      var step := HandleResponse(s, outcomes[i], i, anchors);
      var rest := HandleFrom(step.0, outcomes, i + 1, anchors);
      (rest.0, step.1 + rest.1)
  }

  /** The lines written for a batch, url by url in request order. */
  function LinesOf(urls: seq<string>, outcomes: seq<Outcome>): seq<string>
    requires |urls| == |outcomes|
  {
    if |urls| == 0 then []
    else ResponseLines(urls[0], outcomes[0]) + LinesOf(urls[1..], outcomes[1..])
  }

  /** One unfolding of `LinesOf`: a proof step for HandleFromLines, kept as
      a lemma because stated inline it costs that proof far more solver
      effort. */
  lemma LinesOfCons(urls: seq<string>, outcomes: seq<Outcome>)
    requires |urls| == |outcomes| > 0
    ensures LinesOf(urls, outcomes) == ResponseLines(urls[0], outcomes[0]) + LinesOf(urls[1..], outcomes[1..])
  {
  }

  /** The lines of two batches in a row are the lines of each. */
  lemma {:induction false} LinesOfConcat(a: seq<string>, oa: seq<Outcome>, b: seq<string>, ob: seq<Outcome>)
    requires |a| == |oa| && |b| == |ob|
    ensures LinesOf(a + b, oa + ob) == LinesOf(a, oa) + LinesOf(b, ob)
  {
    if |a| > 0 {
      assert (a + b)[1..] == a[1..] + b;
      assert (oa + ob)[1..] == oa[1..] + ob;
      LinesOfConcat(a[1..], oa[1..], b, ob);
    } else {
      assert a + b == b && oa + ob == ob;
    }
  }

  /** The part of the array a round still has to handle from position `i`:
      none of it is crawled yet. */
  ghost predicate Unhandled(s: State, outcomes: seq<Outcome>, i: nat) {
    && i <= |outcomes| <= |s.uncrawled|
    && forall j :: i <= j < |outcomes| ==> s.uncrawled[j] !in s.crawled
  }

  /** Handling position `i` leaves the later positions unhandled. */
  lemma HandleOne(s: State, outcomes: seq<Outcome>, i: nat, anchors: string -> seq<Option<string>>)
    requires Valid(s) && Unhandled(s, outcomes, i) && i < |outcomes|
    ensures var g := HandleResponse(s, outcomes[i], i, anchors).0;
      && Valid(g) && Unhandled(g, outcomes, i + 1)
      && g.uncrawled[i + 1..|outcomes|] == s.uncrawled[i + 1..|outcomes|]
      && s.uncrawled[i..|outcomes|] == [s.uncrawled[i]] + s.uncrawled[i + 1..|outcomes|]
  {
    var g := HandleResponse(s, outcomes[i], i, anchors).0;
    PrefixSlice(s.uncrawled, g.uncrawled, i + 1, |outcomes|);
    SliceCons(s.uncrawled, i, |outcomes|);
    forall j | i + 1 <= j < |outcomes| ensures g.uncrawled[j] !in g.crawled {
      assert g.uncrawled[j] == s.uncrawled[j];
      assert s.uncrawled[i] != s.uncrawled[j];
    }
  }

  /** Handling a round's positions from `i` on keeps the array's invariant,
      only appends to it, and crawls exactly the urls at those positions. */
  lemma {:induction false} HandleFromFrontier(s: State, outcomes: seq<Outcome>, i: nat, anchors: string -> seq<Option<string>>)
    requires Valid(s) && Unhandled(s, outcomes, i)
    ensures var r := HandleFrom(s, outcomes, i, anchors).0;
      && Valid(r)
      && (forall k :: k in r.crawled <==> k in s.crawled || k in s.uncrawled[i..|outcomes|])
      && (forall k :: k in s.crawled ==> r.crawled[k] == s.crawled[k])
    decreases |outcomes| - i
  {
    if i < |outcomes| {
      var step := HandleResponse(s, outcomes[i], i, anchors);
      HandleOne(s, outcomes, i, anchors);
      HandleFromFrontier(step.0, outcomes, i + 1, anchors);
      assert HandleFrom(s, outcomes, i, anchors).0 == HandleFrom(step.0, outcomes, i + 1, anchors).0;
    }
  }

  /** Crawl records made before the handled positions are untouched. */
  lemma {:induction false} HandleFromKeeps(s: State, outcomes: seq<Outcome>, i: nat, anchors: string -> seq<Option<string>>)
    requires Valid(s) && Unhandled(s, outcomes, i)
    ensures var r := HandleFrom(s, outcomes, i, anchors).0;
      forall k :: k in s.crawled ==> k in r.crawled && r.crawled[k] == s.crawled[k]
    decreases |outcomes| - i
  {
    if i < |outcomes| {
      var step := HandleResponse(s, outcomes[i], i, anchors);
      HandleOne(s, outcomes, i, anchors);
      HandleFromKeeps(step.0, outcomes, i + 1, anchors);
      assert HandleFrom(s, outcomes, i, anchors).0 == HandleFrom(step.0, outcomes, i + 1, anchors).0;
    }
  }

  /** Each url at a handled position is recorded with the status of the
      response at that same position. */
  lemma {:induction false} HandleFromStatuses(s: State, outcomes: seq<Outcome>, i: nat, anchors: string -> seq<Option<string>>)
    requires Valid(s) && Unhandled(s, outcomes, i)
    ensures var r := HandleFrom(s, outcomes, i, anchors).0;
      forall j :: i <= j < |outcomes| ==>
        s.uncrawled[j] in r.crawled && r.crawled[s.uncrawled[j]].status == outcomes[j].status
    decreases |outcomes| - i
  {
    if i < |outcomes| {
      var step := HandleResponse(s, outcomes[i], i, anchors);
      HandleOne(s, outcomes, i, anchors);
      HandleFromStatuses(step.0, outcomes, i + 1, anchors);
      HandleFromKeeps(step.0, outcomes, i + 1, anchors);
      var r := HandleFrom(step.0, outcomes, i + 1, anchors).0;
      assert HandleFrom(s, outcomes, i, anchors).0 == r;
      forall j | i <= j < |outcomes|
        ensures s.uncrawled[j] in r.crawled && r.crawled[s.uncrawled[j]].status == outcomes[j].status
      {
        assert step.0.uncrawled[j] == s.uncrawled[j];
      }
    }
  }

  /** Everything a round adds to the array is an in-scope link of one of
      its pages; so a set of urls that holds the array and those links
      still holds the array afterwards. */
  lemma {:induction false} HandleFromWithin(
    s: State, outcomes: seq<Outcome>, i: nat, anchors: string -> seq<Option<string>>, universe: set<string>)
    requires Valid(s) && Unhandled(s, outcomes, i)
    requires forall u :: u in s.uncrawled ==> u in universe
    requires forall j, l ::
      (i <= j < |outcomes| && l in PageLinks(s.startUrl, outcomes[j], anchors) && StartsWith(l, s.startUrl))
      ==> l in universe
    ensures forall u :: u in HandleFrom(s, outcomes, i, anchors).0.uncrawled ==> u in universe
    decreases |outcomes| - i
  {
    if i < |outcomes| {
      var g := HandleResponse(s, outcomes[i], i, anchors).0;
      HandleOne(s, outcomes, i, anchors);
      forall u | u in g.uncrawled ensures u in universe {
        if u !in s.uncrawled {
          assert StartsWith(u, s.startUrl);
        }
      }
      HandleFromWithin(g, outcomes, i + 1, anchors, universe);
      assert HandleFrom(s, outcomes, i, anchors).0 == HandleFrom(g, outcomes, i + 1, anchors).0;
    }
  }

  /** Every in-scope url of `links` is in the array or crawled. */
  ghost predicate Covered(s: State, links: seq<string>) {
    forall l :: l in links && StartsWith(l, s.startUrl) ==> l in s.uncrawled || l in s.crawled
  }

  /** Links held by the array or the crawl record stay held as both grow. */
  lemma CoveredGrows(g: State, r: State, links: seq<string>)
    requires Covered(g, links) && r.startUrl == g.startUrl
    requires g.uncrawled <= r.uncrawled && g.crawled.Keys <= r.crawled.Keys
    ensures Covered(r, links)
  {
    PrefixKeeps(g.uncrawled, r.uncrawled);
  }

  /** Every in-scope link of a handled page is in the array or crawled once
      the round is over. */
  lemma {:induction false} HandleFromLinks(
    s: State, outcomes: seq<Outcome>, i: nat, anchors: string -> seq<Option<string>>)
    requires Valid(s) && Unhandled(s, outcomes, i)
    ensures var r := HandleFrom(s, outcomes, i, anchors).0;
      forall j :: i <= j < |outcomes| ==> Covered(r, PageLinks(s.startUrl, outcomes[j], anchors))
    decreases |outcomes| - i
  {
    if i < |outcomes| {
      var g := HandleResponse(s, outcomes[i], i, anchors).0;
      HandleOne(s, outcomes, i, anchors);
      HandleFromLinks(g, outcomes, i + 1, anchors);
      HandleFromFrontier(g, outcomes, i + 1, anchors);
      var r := HandleFrom(g, outcomes, i + 1, anchors).0;
      assert HandleFrom(s, outcomes, i, anchors).0 == r;
      assert g.startUrl == s.startUrl;
      forall j | i <= j < |outcomes|
        ensures Covered(r, PageLinks(s.startUrl, outcomes[j], anchors))
      {
        if j == i {
          assert Covered(g, PageLinks(s.startUrl, outcomes[i], anchors));
          CoveredGrows(g, r, PageLinks(s.startUrl, outcomes[i], anchors));
        }
      }
    }
  }

  /** The lines of a round are those of its urls, in request order: the
      url named at each position is the one requested there. */
  lemma {:induction false} HandleFromLines(s: State, outcomes: seq<Outcome>, i: nat, anchors: string -> seq<Option<string>>)
    requires i <= |outcomes| <= |s.uncrawled|
    ensures HandleFrom(s, outcomes, i, anchors).1 == LinesOf(s.uncrawled[i..|outcomes|], outcomes[i..])
    decreases |outcomes| - i
  {
    if i < |outcomes| {
      var step := HandleResponse(s, outcomes[i], i, anchors);
      var rest := HandleFrom(step.0, outcomes, i + 1, anchors);
      HandleFromLines(step.0, outcomes, i + 1, anchors);
      PrefixSlice(s.uncrawled, step.0.uncrawled, i + 1, |outcomes|);
      SliceCons(s.uncrawled, i, |outcomes|);
      LinesOfCons(s.uncrawled[i..|outcomes|], outcomes[i..]);
      assert outcomes[i..][1..] == outcomes[i + 1..];
      assert HandleFrom(s, outcomes, i, anchors).1 == step.1 + rest.1;
    }
  }

  /** `uncrawledUrls.filter(it => !crawledUrls[it])` at the top of a round:
      removes exactly the crawled urls and keeps the order of the rest. */
  function DropCrawled(s: State): (t: State)
    ensures t.startUrl == s.startUrl && t.crawled == s.crawled
    ensures IsSubseq(t.uncrawled, s.uncrawled)
    ensures forall u :: u in t.uncrawled <==> u in s.uncrawled && u !in s.crawled
    ensures Valid(s) ==> Valid(t)
  {
    s.(uncrawled := Filter(s.uncrawled, (u: string) => u !in s.crawled))
  }

  /** One iteration of `main`'s loop: filter, fetch the whole array, handle
      the responses by position. Gives the new state, the urls fetched and
      the lines written. */
  function Round(s: State, fetch: string -> Transport, anchors: string -> seq<Option<string>>)
    : (res: (State, seq<string>, seq<string>))
    ensures res.0.startUrl == s.startUrl
  {
    var t := DropCrawled(s);
    var batch := t.uncrawled;
    var handled := HandleFrom(t, FetchAll(fetch, batch), 0, anchors);
    (handled.0, batch, handled.1)
  }

  /** Every in-scope link of every crawled page is in the array or crawled. */
  ghost predicate LinksKnown(s: State, fetch: string -> Transport, anchors: string -> seq<Option<string>>) {
    forall c :: c in s.crawled ==> Covered(s, PageLinks(s.startUrl, Settle(fetch(c)), anchors))
  }

  /** `universe` contains every in-scope link of its own pages. */
  ghost predicate Closed(universe: set<string>, startUrl: string, fetch: string -> Transport, anchors: string -> seq<Option<string>>) {
    forall u, l ::
      (u in universe && l in PageLinks(startUrl, Settle(fetch(u)), anchors) && StartsWith(l, startUrl))
      ==> l in universe
  }

  /** After the filter, the array is a batch nobody has crawled. */
  lemma RoundBatch(s: State, fetch: string -> Transport, anchors: string -> seq<Option<string>>)
    requires Valid(s)
    ensures var t := DropCrawled(s);
      && Valid(t)
      && Round(s, fetch, anchors) == (HandleFrom(t, FetchAll(fetch, t.uncrawled), 0, anchors).0, t.uncrawled,
                                      HandleFrom(t, FetchAll(fetch, t.uncrawled), 0, anchors).1)
      && Unhandled(t, FetchAll(fetch, t.uncrawled), 0)
      && t.uncrawled[0..|t.uncrawled|] == t.uncrawled
  {
  }

  /** The array part of one round: the invariant, the universe and the known
      links are kept. */
  lemma RoundFrontier(s: State, fetch: string -> Transport, anchors: string -> seq<Option<string>>, universe: set<string>)
    requires Valid(s) && LinksKnown(s, fetch, anchors)
    requires (forall u :: u in s.uncrawled ==> u in universe) && s.crawled.Keys <= universe
    requires Closed(universe, s.startUrl, fetch, anchors)
    ensures var r := Round(s, fetch, anchors).0;
      && Valid(r) && LinksKnown(r, fetch, anchors)
      && (forall u :: u in r.uncrawled ==> u in universe) && r.crawled.Keys <= universe
      && (forall k :: k in s.crawled ==> k in r.crawled && r.crawled[k] == s.crawled[k])
      && (forall k :: k in r.crawled <==> k in s.crawled || k in DropCrawled(s).uncrawled)
  {
    RoundBatch(s, fetch, anchors);
    var t := DropCrawled(s);
    var batch := t.uncrawled;
    var outcomes := FetchAll(fetch, batch);
    var r := HandleFrom(t, outcomes, 0, anchors).0;
    HandleFromFrontier(t, outcomes, 0, anchors);
    forall j, l |
      (0 <= j < |outcomes| && l in PageLinks(t.startUrl, outcomes[j], anchors) && StartsWith(l, t.startUrl))
      ensures l in universe
    {
      assert batch[j] in s.uncrawled;
    }
    HandleFromWithin(t, outcomes, 0, anchors, universe);
    HandleFromLinks(t, outcomes, 0, anchors);
    forall c | c in r.crawled ensures Covered(r, PageLinks(r.startUrl, Settle(fetch(c)), anchors)) {
      if c in s.crawled {
        var links := PageLinks(s.startUrl, Settle(fetch(c)), anchors);
        assert Covered(t, links);
        CoveredGrows(t, r, links);
      } else {
        var j :| 0 <= j < |batch| && batch[j] == c;
        assert outcomes[j] == Settle(fetch(c));
      }
    }
  }

  /** Every round either crawls a url of the universe not crawled before,
      or finds nothing left to fetch and empties the array. */
  lemma RoundProgress(s: State, fetch: string -> Transport, anchors: string -> seq<Option<string>>, universe: set<string>)
    requires Valid(s) && |s.uncrawled| > 0
    requires forall u :: u in s.uncrawled ==> u in universe
    ensures var r := Round(s, fetch, anchors).0;
      || |universe - r.crawled.Keys| < |universe - s.crawled.Keys|
      || (r.crawled == s.crawled && |r.uncrawled| < |s.uncrawled|)
  {
    RoundBatch(s, fetch, anchors);
    var t := DropCrawled(s);
    var batch := t.uncrawled;
    var outcomes := FetchAll(fetch, batch);
    var r := HandleFrom(t, outcomes, 0, anchors).0;
    HandleFromFrontier(t, outcomes, 0, anchors);
    if |batch| > 0 {
      assert batch[0] in batch;
      SetShrinks(universe, s.crawled.Keys, r.crawled.Keys, batch[0]);
    } else {
      assert r == t;
    }
  }

  /** The outcomes of two batches in a row are those of each batch. A proof
      step for RoundLogs. */
  lemma FetchAllConcat(fetch: string -> Transport, a: seq<string>, b: seq<string>)
    ensures FetchAll(fetch, a + b) == FetchAll(fetch, a) + FetchAll(fetch, b)
  {
  }

  /** The logs of one round: no url fetched twice, the fetch log in step
      with the crawl record and its statuses, and the written lines those
      of the fetched urls in order. */
  lemma RoundLogs(
    s: State, fetched: seq<string>, lines: seq<string>,
    fetch: string -> Transport, anchors: string -> seq<Option<string>>)
    requires Valid(s) && NoDup(fetched) && (forall u :: u in fetched <==> u in s.crawled)
    requires forall u :: u in s.crawled ==> s.crawled[u].status == Settle(fetch(u)).status
    requires lines == LinesOf(fetched, FetchAll(fetch, fetched))
    ensures var res := Round(s, fetch, anchors);
      && NoDup(fetched + res.1)
      && (forall u :: u in fetched + res.1 <==> u in res.0.crawled)
      && (forall u :: u in res.0.crawled ==> res.0.crawled[u].status == Settle(fetch(u)).status)
      && lines + res.2 == LinesOf(fetched + res.1, FetchAll(fetch, fetched + res.1))
  {
    RoundBatch(s, fetch, anchors);
    var t := DropCrawled(s);
    var batch := t.uncrawled;
    var outcomes := FetchAll(fetch, batch);
    var h := HandleFrom(t, outcomes, 0, anchors);
    HandleFromFrontier(t, outcomes, 0, anchors);
    HandleFromStatuses(t, outcomes, 0, anchors);
    HandleFromLines(t, outcomes, 0, anchors);
    ConcatNoDup(fetched, batch);
    forall u | u in h.0.crawled ensures h.0.crawled[u].status == Settle(fetch(u)).status {
      if u !in s.crawled {
        var j :| 0 <= j < |batch| && batch[j] == u;
      }
    }
    assert outcomes[0..] == outcomes;
    FetchAllConcat(fetch, fetched, batch);
    LinesOfConcat(fetched, FetchAll(fetch, fetched), batch, outcomes);
  }

  /** What holds at the top of every iteration of `main`'s loop. */
  ghost predicate MainInv(
    s: State, fetched: seq<string>, lines: seq<string>, startUrl: string,
    fetch: string -> Transport, anchors: string -> seq<Option<string>>, universe: set<string>)
  {
    && Valid(s) && s.startUrl == startUrl
    && (forall u :: u in s.uncrawled ==> u in universe) && s.crawled.Keys <= universe
    && NoDup(fetched) && (forall u :: u in fetched <==> u in s.crawled)
    && (startUrl in s.uncrawled || startUrl in s.crawled)
    && (forall u :: u in s.crawled ==> s.crawled[u].status == Settle(fetch(u)).status)
    && LinksKnown(s, fetch, anchors)
    && lines == LinesOf(fetched, FetchAll(fetch, fetched))
  }

  /** A round keeps the loop invariant and decreases the loop measure. */
  lemma RoundStep(
    s: State, fetched: seq<string>, lines: seq<string>, startUrl: string,
    fetch: string -> Transport, anchors: string -> seq<Option<string>>, universe: set<string>)
    requires MainInv(s, fetched, lines, startUrl, fetch, anchors, universe)
    requires Closed(universe, startUrl, fetch, anchors)
    requires |s.uncrawled| > 0
    ensures var res := Round(s, fetch, anchors);
      && MainInv(res.0, fetched + res.1, lines + res.2, startUrl, fetch, anchors, universe)
      && (|universe - res.0.crawled.Keys| < |universe - s.crawled.Keys|
          || (|universe - res.0.crawled.Keys| == |universe - s.crawled.Keys| && |res.0.uncrawled| < |s.uncrawled|))
  {
    RoundFrontier(s, fetch, anchors, universe);
    RoundProgress(s, fetch, anchors, universe);
    RoundLogs(s, fetched, lines, fetch, anchors);
  }

  /** The loop starts with the invariant. */
  lemma MainStart(
    startUrl: string, fetch: string -> Transport, anchors: string -> seq<Option<string>>, universe: set<string>)
    requires startUrl in universe
    ensures MainInv(Init(startUrl), [], [], startUrl, fetch, anchors, universe)
  {
  }

  /** When the array is empty the invariant gives what `main` promises. */
  lemma MainDone(
    s: State, fetched: seq<string>, lines: seq<string>, startUrl: string,
    fetch: string -> Transport, anchors: string -> seq<Option<string>>, universe: set<string>)
    requires MainInv(s, fetched, lines, startUrl, fetch, anchors, universe) && s.uncrawled == []
    ensures startUrl in s.crawled
    ensures forall u :: u in s.crawled ==> StartsWith(u, startUrl)
    ensures forall c, l ::
      (c in s.crawled && l in PageLinks(startUrl, Settle(fetch(c)), anchors) && StartsWith(l, startUrl))
      ==> l in s.crawled
  {
    forall c, l |
      c in s.crawled && l in PageLinks(startUrl, Settle(fetch(c)), anchors) && StartsWith(l, startUrl)
      ensures l in s.crawled
    {
      assert Covered(s, PageLinks(s.startUrl, Settle(fetch(c)), anchors));
    }
  }

  /** `main`: rounds run while the array is not empty. Given a set of urls
      that holds the start url and every in-scope link of its pages, the
      loop ends (the last round finds only crawled urls and empties the
      array). Then no url was fetched twice, exactly the fetched urls are
      crawled, each with the status of its response, only urls under the
      start url were fetched, every in-scope link of every crawled page was
      crawled, and the lines written are those of the fetched urls in
      fetch order. */
  method Run(startUrl: string, fetch: string -> Transport, anchors: string -> seq<Option<string>>, ghost universe: set<string>)
    returns (s: State, fetched: seq<string>, lines: seq<string>)
    requires startUrl in universe && Closed(universe, startUrl, fetch, anchors)
    ensures Valid(s) && s.startUrl == startUrl && s.uncrawled == []
    ensures NoDup(fetched)
    ensures forall u :: u in fetched <==> u in s.crawled
    ensures startUrl in s.crawled
    ensures forall u :: u in s.crawled ==>
      StartsWith(u, startUrl) && s.crawled[u].status == Settle(fetch(u)).status
    ensures forall c, l ::
      (c in s.crawled && l in PageLinks(startUrl, Settle(fetch(c)), anchors) && StartsWith(l, startUrl))
      ==> l in s.crawled
    ensures lines == LinesOf(fetched, FetchAll(fetch, fetched))
  {
    s := Init(startUrl);
    fetched := [];
    lines := [];
    MainStart(startUrl, fetch, anchors, universe);
    while |s.uncrawled| > 0
      invariant MainInv(s, fetched, lines, startUrl, fetch, anchors, universe)
      decreases |universe - s.crawled.Keys|, |s.uncrawled|
    {
      RoundStep(s, fetched, lines, startUrl, fetch, anchors, universe);
      var res := Round(s, fetch, anchors);
      s, fetched, lines := res.0, fetched + res.1, lines + res.2;
    }
    MainDone(s, fetched, lines, startUrl, fetch, anchors, universe);
  }
}

=== FILE: seqs.dfy ===
/** Sequence utilities: duplicate-freedom, order-preserving filtering and
    the subsequence relation that specifies it. */
module Seqs {

  /** No element occurs twice. */
  predicate NoDup<T(==)>(s: seq<T>) {
    forall i, j :: 0 <= i < j < |s| ==> s[i] != s[j]
  }

  /** `r` is obtained from `s` by deleting some elements and keeping the
      order of the others. */
  predicate IsSubseq<T(==)>(r: seq<T>, s: seq<T>)
    decreases |s|
  {
    if |r| == 0 then true
    else if |s| == 0 then false
    else if r[0] == s[0] then IsSubseq(r[1..], s[1..])
    else IsSubseq(r, s[1..])
  }

  /** The elements of `s` that satisfy `keep`, in their original order
      (JavaScript's `Array.prototype.filter`). */
  function Filter<T(==,!new)>(s: seq<T>, keep: T -> bool): (r: seq<T>)
    ensures forall x :: x in r <==> x in s && keep(x)
    ensures IsSubseq(r, s)
    ensures |r| <= |s|
    ensures NoDup(s) ==> NoDup(r)
    ensures (forall i :: 0 <= i < |s| ==> keep(s[i])) ==> r == s
  {
    if |s| == 0 then []
    else
      var rest := Filter(s[1..], keep);
      assert forall x :: x in s <==> x == s[0] || x in s[1..];
      if keep(s[0]) then
        assert NoDup(s) ==> s[0] !in s[1..];
        [s[0]] + rest
      else rest
  }

  /** Dropping the first element of a subsequence leaves a subsequence. */
  lemma {:induction false} SubseqDropHead<T>(r: seq<T>, s: seq<T>)
    requires |r| > 0 && IsSubseq(r, s)
    ensures IsSubseq(r[1..], s)
    decreases |s|
  {
    if r[0] == s[0] {
      if |r| > 1 && r[1] == s[0] {
        SubseqDropHead(r[1..], s[1..]);
        assert r[1..][1..] == r[2..];
      }
    } else {
      SubseqDropHead(r, s[1..]);
      if |r| > 1 && r[1] == s[0] {
        SubseqDropHead(r[1..], s[1..]);
        assert r[1..][1..] == r[2..];
      }
    }
  }

  /** A subsequence of the tail is a subsequence of the whole. */
  lemma SubseqOfTail<T>(r: seq<T>, s: seq<T>)
    requires |s| > 0 && IsSubseq(r, s[1..])
    ensures IsSubseq(r, s)
  {
    if |r| > 0 && r[0] == s[0] {
      SubseqDropHead(r, s[1..]);
    }
  }

  /** The subsequence relation is transitive. */
  lemma {:induction false} SubseqTrans<T>(a: seq<T>, b: seq<T>, c: seq<T>)
    requires IsSubseq(a, b) && IsSubseq(b, c)
    ensures IsSubseq(a, c)
    decreases |c|
  {
    if |a| > 0 {
      if b[0] == c[0] {
        if a[0] == b[0] {
          SubseqTrans(a[1..], b[1..], c[1..]);
        } else {
          SubseqTrans(a, b[1..], c[1..]);
          SubseqOfTail(a, c);
        }
      } else {
        SubseqTrans(a, b, c[1..]);
        SubseqOfTail(a, c);
      }
    }
  }

  /** A common prefix keeps the subsequence relation. */
  lemma {:induction false} SubseqPrefix<T>(p: seq<T>, x: seq<T>, y: seq<T>)
    requires IsSubseq(x, y)
    ensures IsSubseq(p + x, p + y)
    decreases |p|
  {
    if |p| == 0 {
      assert p + x == x && p + y == y;
    } else {
      SubseqPrefix(p[1..], x, y);
      assert (p + x)[0] == (p + y)[0];
      assert (p + x)[1..] == p[1..] + x;
      assert (p + y)[1..] == p[1..] + y;
    }
  }

  /** `Filter` decides the first element and filters the rest. A proof
      step for FilterMultiset, FilterConcat and Links.ExtractLinksMapFilter. */
  lemma FilterCons<T(!new)>(s: seq<T>, keep: T -> bool)
    requires |s| > 0
    ensures Filter(s, keep) == (if keep(s[0]) then [s[0]] + Filter(s[1..], keep) else Filter(s[1..], keep))
  {
  }

  /** Filtering a concatenation filters each part. */
  lemma {:induction false} FilterConcat<T(!new)>(a: seq<T>, b: seq<T>, keep: T -> bool)
    ensures Filter(a + b, keep) == Filter(a, keep) + Filter(b, keep)
    decreases |a|
  {
    if |a| > 0 {
      assert (a + b)[1..] == a[1..] + b;
      FilterCons(a + b, keep);
      FilterCons(a, keep);
      FilterConcat(a[1..], b, keep);
    } else {
      assert a + b == b;
    }
  }

  /** The position of the first occurrence of `x` in `s`. */
  function FirstIndex<T(==)>(s: seq<T>, x: T): (i: nat)
    requires x in s
    ensures i < |s| && s[i] == x
    ensures forall j :: 0 <= j < i ==> s[j] != x
    decreases |s|
  {
    if s[0] == x then 0
    else
      assert x in s[1..] by { assert s == [s[0]] + s[1..]; }
      1 + FirstIndex(s[1..], x)
  }

  /** The elements of `r` occur in `s`, and in `r` they come in the order
      of their first occurrence in `s`; so `r` has no repeats. */
  predicate InFirstOrder<T(==)>(r: seq<T>, s: seq<T>) {
    && (forall i :: 0 <= i < |r| ==> r[i] in s)
    && (forall i, j :: 0 <= i < j < |r| ==> FirstIndex(s, r[i]) < FirstIndex(s, r[j]))
  }

  /** Elements ordered by their first occurrence in the tail, other than
      the head, are ordered by their first occurrence in the whole. */
  lemma InFirstOrderTail<T>(r: seq<T>, s: seq<T>)
    requires |s| > 0 && InFirstOrder(r, s[1..]) && s[0] !in r
    ensures InFirstOrder(r, s)
  {
    forall i | 0 <= i < |r|
      ensures r[i] in s && FirstIndex(s, r[i]) == 1 + FirstIndex(s[1..], r[i])
    {
      assert r[i] != s[0];
      assert s == [s[0]] + s[1..];
    }
  }

  /** Under the same conditions, the head put in front keeps that order. */
  lemma InFirstOrderCons<T>(r: seq<T>, s: seq<T>)
    requires |s| > 0 && InFirstOrder(r, s[1..]) && s[0] !in r
    ensures InFirstOrder([s[0]] + r, s)
  {
    InFirstOrderTail(r, s);
    var c := [s[0]] + r;
    forall i, j | 0 <= i < j < |c| ensures FirstIndex(s, c[i]) < FirstIndex(s, c[j]) {
      assert c[j] == r[j - 1];
      if i > 0 {
        assert c[i] == r[i - 1];
      }
    }
  }

  /** `Filter` keeps every occurrence of an element that passes and none of
      one that fails: the multiplicity half of its contract. */
  lemma {:induction false} FilterMultiset<T(!new)>(s: seq<T>, keep: T -> bool)
    ensures forall x :: multiset(Filter(s, keep))[x] == if keep(x) then multiset(s)[x] else 0
    decreases |s|
  {
    if |s| > 0 {
      FilterMultiset(s[1..], keep);
      assert s == [s[0]] + s[1..];
      FilterCons(s, keep);
    }
  }

  /** The tail of a duplicate-free sequence is duplicate-free and lacks
      the head. */
  lemma NoDupTail<T>(s: seq<T>)
    requires NoDup(s) && |s| > 0
    ensures NoDup(s[1..]) && s[0] !in s[1..]
    ensures forall u :: u in s <==> u == s[0] || u in s[1..]
  {
    forall u | u in s[1..] ensures u != s[0] {
      var j :| 0 <= j < |s[1..]| && s[1..][j] == u;
      assert s[j + 1] == u;
    }
    forall i, j | 0 <= i < j < |s[1..]| ensures s[1..][i] != s[1..][j] {
      assert s[1..][i] == s[i + 1] && s[1..][j] == s[j + 1];
    }
    assert s == [s[0]] + s[1..];
  }

  /** Appending to a duplicate-free sequence an element it lacks keeps it
      duplicate-free. */
  lemma AppendNoDup<T>(s: seq<T>, x: T)
    requires NoDup(s) && x !in s
    ensures NoDup(s + [x])
  {
    forall i, j | 0 <= i < j < |s + [x]|
      ensures (s + [x])[i] != (s + [x])[j]
    {
      if j == |s| {
        assert (s + [x])[i] == s[i];
        assert s[i] in s;
      }
    }
  }

  /** Concatenating two duplicate-free sequences with no element in common
      gives a duplicate-free sequence. */
  lemma ConcatNoDup<T>(a: seq<T>, b: seq<T>)
    requires NoDup(a) && NoDup(b)
    requires forall x :: x in a ==> x !in b
    ensures NoDup(a + b)
  {
    forall i, j | 0 <= i < j < |a + b|
      ensures (a + b)[i] != (a + b)[j]
    {
      if i < |a| && j >= |a| {
        assert (a + b)[i] == a[i] && a[i] in a;
        assert (a + b)[j] == b[j - |a|] && b[j - |a|] in b;
      }
    }
  }

  /** Adding to `a` an element `x` of `u` that `a` lacks shrinks what `a`
      leaves of `u`. */
  lemma SetShrinks<T>(u: set<T>, a: set<T>, b: set<T>, x: T)
    requires a <= b && x in b && x !in a && x in u
    ensures |u - b| < |u - a|
  {
    var d := (u - a) - (u - b);
    assert x in d;
    assert u - a == (u - b) + d;
    assert (u - b) !! d;
    assert |u - a| == |u - b| + |d|;
  }

  /** What a sequence holds, every extension of it holds. */
  lemma PrefixKeeps<T>(a: seq<T>, b: seq<T>)
    requires a <= b
    ensures forall x :: x in a ==> x in b
  {
    forall x | x in a ensures x in b {
      var i :| 0 <= i < |a| && a[i] == x;
      assert b[i] == x;
    }
  }

  /** A concatenation cut where its two parts meet. A proof step for
      Script.ResponseLines. */
  lemma PrefixParts<T>(p: seq<T>, x: seq<T>)
    ensures (p + x)[..|p|] == p && (p + x)[|p|..] == x
  {
  }

  /** A slice inside a prefix is the same slice of the extension. A proof
      step for Script.HandleOne and Script.HandleFromLines. */
  lemma PrefixSlice<T>(a: seq<T>, b: seq<T>, lo: nat, hi: nat)
    requires a <= b && lo <= hi <= |a|
    ensures b[lo..hi] == a[lo..hi]
  {
  }

  /** A non-empty slice is its first element followed by the rest. A proof
      step for Script.HandleOne and Script.HandleFromLines. */
  lemma SliceCons<T>(a: seq<T>, lo: nat, hi: nat)
    requires lo < hi <= |a|
    ensures a[lo..hi] == [a[lo]] + a[lo + 1..hi]
  {
  }
}

=== FILE: strings.dfy ===
/** The string operations the crawler and the reporter use: `startsWith`,
    `Array.prototype.join` (which JavaScript applies when an array is
    concatenated to a string), and the decimal rendering of an integer.
    Each comes with its inverse. `IndexOf` and `Split` are not calls the
    crawler makes: the readers of the reporter's texts are built from them,
    and `ParseInt` reads a rendered integer back. */
module Strings {

  /** JavaScript's `s.startsWith(prefix)`. */
  predicate StartsWith(s: string, prefix: string) {
    prefix <= s
  }

  /** Position of the first `c` in `s`, or `|s|` when there is none. */
  function IndexOf(s: string, c: char): (i: nat)
    ensures i <= |s|
    ensures i < |s| ==> s[i] == c
    ensures forall j :: 0 <= j < i ==> s[j] != c
    ensures i == |s| <==> c !in s
  {
    if |s| == 0 then 0
    else if s[0] == c then 0
    else 1 + IndexOf(s[1..], c)
  }

  /** In `a + b`, the first `c` is the first character of `b` when `a` has
      none. */
  lemma {:induction false} IndexOfConcat(a: string, b: string, c: char)
    requires c !in a && |b| > 0 && b[0] == c
    ensures IndexOf(a + b, c) == |a|
  {
    if |a| > 0 {
      assert (a + b)[1..] == a[1..] + b;
      IndexOfConcat(a[1..], b, c);
    }
  }

  /** `parts.join(sep)`: the parts with `sep` between neighbours. */
  function Join(parts: seq<string>, sep: string): (s: string)
    ensures |parts| == 0 ==> s == ""
    ensures |parts| == 1 ==> s == parts[0]
  {
    if |parts| == 0 then ""
    else if |parts| == 1 then parts[0]
    else parts[0] + sep + Join(parts[1..], sep)
  }

  /** Cuts `s` at every occurrence of `c`; the inverse of joining with
      `c`. */
  function Split(s: string, c: char): (parts: seq<string>)
    ensures |parts| > 0
    ensures forall k :: 0 <= k < |parts| ==> c !in parts[k]
    decreases |s|
  {
    var i := IndexOf(s, c);
    if i == |s| then [s]
    else [s[..i]] + Split(s[i + 1..], c)
  }

  /** Splitting stops at the first separator. */
  lemma SplitAtFirst(a: string, b: string, c: char)
    requires c !in a
    ensures Split(a + ([c] + b), c) == [a] + Split(b, c)
  {
    var s := a + ([c] + b);
    IndexOfConcat(a, [c] + b, c);
    assert s[..|a|] == a;
    assert s[|a| + 1..] == b;
  }

  /** Splitting undoes joining, provided no part contains the separator. */
  lemma {:induction false} SplitJoin(parts: seq<string>, c: char)
    requires |parts| > 0
    requires forall k :: 0 <= k < |parts| ==> c !in parts[k]
    ensures Split(Join(parts, [c]), c) == parts
  {
    if |parts| == 1 {
      assert Join(parts, [c]) == parts[0];
    } else {
      var rest := parts[1..];
      var tail := Join(rest, [c]);
      assert Join(parts, [c]) == parts[0] + ([c] + tail);
      SplitAtFirst(parts[0], tail, c);
      assert forall k :: 0 <= k < |rest| ==> rest[k] == parts[k + 1];
      SplitJoin(rest, c);
      assert parts == [parts[0]] + rest;
    }
  }

  /** Joining undoes splitting, for every string. */
  lemma {:induction false} JoinSplit(s: string, c: char)
    ensures Join(Split(s, c), [c]) == s
    decreases |s|
  {
    var i := IndexOf(s, c);
    if i < |s| {
      var rest := Split(s[i + 1..], c);
      JoinSplit(s[i + 1..], c);
      assert Split(s, c) == [s[..i]] + rest;
      assert ([s[..i]] + rest)[1..] == rest;
      assert s == s[..i] + [c] + s[i + 1..];
    }
  }

  predicate IsDigit(ch: char) {
    '0' <= ch <= '9'
  }

  function DigitChar(d: nat): (ch: char)
    requires d < 10
    ensures IsDigit(ch)
  {
    ('0' as int + d) as char
  }

  function DigitValue(ch: char): nat {
    if IsDigit(ch) then ch as int - '0' as int else 0
  }

  /** Decimal digits of `n`, most significant first, without leading zeros. */
  function NatToString(n: nat): (s: string)
    ensures |s| > 0
    ensures forall i :: 0 <= i < |s| ==> IsDigit(s[i])
    ensures |s| > 1 ==> s[0] != '0'
    decreases n
  {
    if n < 10 then [DigitChar(n)]
    else NatToString(n / 10) + [DigitChar(n % 10)]
  }

  /** The value of a string of decimal digits (non-digits read as 0). */
  function ParseNat(s: string): nat
    decreases |s|
  {
    if |s| == 0 then 0
    else ParseNat(s[..|s| - 1]) * 10 + DigitValue(s[|s| - 1])
  }

  /** JavaScript's rendering of an integral number, as in `'status:' + n`:
      a minus sign exactly for a negative number, then decimal digits
      without a leading zero. */
  function IntToString(n: int): (s: string)
    ensures |s| > 0
    ensures forall i :: 0 <= i < |s| ==> s[i] == '-' || IsDigit(s[i])
    ensures s[0] == '-' <==> n < 0
    ensures forall i :: 0 < i < |s| ==> IsDigit(s[i])
    ensures n >= 0 && |s| > 1 ==> s[0] != '0'
    ensures n < 0 ==> |s| > 1 && (|s| > 2 ==> s[1] != '0')
  {
    if n < 0 then "-" + NatToString(-n) else NatToString(n)
  }

  /** The value of an optional minus sign followed by digits. */
  function ParseInt(s: string): int {
    if |s| > 0 && s[0] == '-' then -(ParseNat(s[1..]) as int) else ParseNat(s)
  }

  /** The digits of a natural number read back as that number. */
  lemma {:induction false} ParseNatToString(n: nat)
    ensures ParseNat(NatToString(n)) == n
    decreases n
  {
    if n >= 10 {
      var s := NatToString(n);
      assert s[..|s| - 1] == NatToString(n / 10);
      ParseNatToString(n / 10);
    }
  }

  /** The rendering of an integer reads back as the same integer. */
  lemma ParseIntToString(n: int)
    ensures ParseInt(IntToString(n)) == n
  {
    var s := IntToString(n);
    if n < 0 {
      assert s[1..] == NatToString(-n);
      ParseNatToString(-n);
    } else {
      assert IsDigit(s[0]);
      ParseNatToString(n);
    }
  }
}

=== FILE: wrappers.dfy ===
/** The optional-value datatype used wherever the crawler's code has a value
    that may be `undefined` or `null`. */
module Wrappers {

  datatype Option<+T> = None | Some(value: T) {

    /** The contained value, or `default` when there is none. */
    function GetOr(default: T): T {
      match this
      case Some(v) => v
      case None => default
    }
  }
}
